=== FILE: README.md ===
# cereal non-blocking read adapter, in Dafny

This project models two parts of the Go package `cereal`:

- The non-blocking read adapter of `nonblocking.go`. A `NonBlocking` wraps a
  blocking byte stream and starts a pump goroutine. The pump reads into a
  mutex-guarded FIFO buffer. It holds back when the buffer reaches its
  threshold, and it stops once the terminal error slot is set. Callers drain
  the buffer with `Read` or `ReadDeadline`: they poll with bounded sleeps
  until bytes arrive, the deadline passes, or the slot is set.
- The serial-mode enumerations of `mode.go`: stop bits and parity.

The model is functional. Every mutex-held operation is a pure transition on
an immutable `NonBlocking` record. The modules are:

- `Shared`: the record and the buffer operations.
- `ExpBackoff`: the backoff.
- `Pump`: one pump iteration, split into steps, each under a lock of its
  own: the test of the slot, the test of the buffer against the threshold,
  the append and backoff that follow the underlying read, and on end of
  stream the setting of the slot.
- `System`: the record, the pump and the underlying stream together, plus
  the atomic actions of other threads.
- `Deadline`: `readNext`, `ReadDeadline` and `Read` over an integer clock in
  nanoseconds.
- `Trace`: whole runs.

Concurrency is modelled by interleaving. Each buffer operation returns a log
of what it appended and what it removed, with the fate of each removed chunk:
taken by the caller under study, taken by another caller, or discarded by
Reset. `Shared.Accounts` is the FIFO law over such a log. `System.Follows`
bundles what every run keeps:

- the invariant, which includes the buffer bound;
- the FIFO law;
- the pump consumes the stream from its front and appends exactly those
  payloads;
- the configuration does not change;
- the error slot never goes back to empty.

The caller's time is an integer clock. While a caller sleeps, and in the
windows between locked steps of `readNext`, other threads may act.
Each such gap is a `Deadline.Gap`: the actions that happen in it, and how far
past the requested sleep the caller wakes. Once the given gaps run out, every
further gap is quiet, and a sleep overruns by one nanosecond.

Points worth noting about the code:

- Backpressure starts at `Buffered() >= maxBuffered`, that is, once the
  buffer holds the threshold.
- A zero `MaxReadBuffered` becomes 32768. The `maxBuffered != 0` test in the
  loop is therefore always true.
- `setErr` overwrites the slot. `Close` replaces any earlier error with EOF.
  A panic recovered after Close replaces EOF with the pump-failure error. A
  set slot never becomes empty again.
- When the underlying read reports end of stream, the pump appends the bytes,
  then sets the slot under a second lock, and returns. It does not call
  `Hit`.
- With a zero timeout, `Read` returns the buffered bytes and the slot's error
  in the same call. The last bytes of a stream come back together with EOF
  when the pump has set the slot by then
  (`Shared.FastReadBytesWithError`), and with no error when the read falls
  between the pump's append and its setting of the slot; the next read then
  returns EOF alone (`Deadline.LastBytesBeforeEnd`).
- The branch of `ReadDeadline` that surfaces the slot's error when no fetch
  failed (nonblocking.go:136-140) is reached only when `len(b) == 0`. With
  room for bytes, the fill loop ends with no bytes only when a fetch failed.
  `Deadline.ReadDeadline` states this as `room > 0 && r.got == [] ==> r.err ==
  r.fetchErr`.
- `readNext` reads the buffer length (nonblocking.go:145, 154) and the slot
  (nonblocking.go:150) under separate locks. When the pump's last read
  completes in between, appending its bytes and setting the slot to EOF,
  the fetch fails with EOF although those bytes are buffered, and
  `ReadDeadline` returns no bytes and EOF. `Deadline.EndedWithBytesBuffered`
  states this. The bytes stay in the buffer for the next call.
- The pump, too, tests the slot (nonblocking.go:85) and the buffer length
  (nonblocking.go:86) under separate locks. A Close and a take between the
  two let it issue one more read after the slot was set.
  `System.PumpReadsAfterClose` states this.

The numeric values of the mode constants come from the package
`go.bug.st/serial`, which is not part of this model. They are taken to be
consecutive from zero in declaration order. This is what makes the table
lookup in `Parity.Char` stay in range.

## Model

| member | source | states |
|---|---|---|
| `Basics.Min` | nonblocking.go:209-214 | the result is at most each argument and equals one of them |
| `ExpBackoff.Or1` | nonblocking.go:250 | `wait \| 1` is odd and is the wait or the wait plus one |
| `ExpBackoff.Shl64` | nonblocking.go:251 | the int64 shift is multiplication by a power of two when it does not overflow, and zero for a count of 64 or more |
| `ExpBackoff.Exp` | nonblocking.go:245 | `ExpMinusOne + 1` in uint32 arithmetic: one more, except that the largest value wraps to 0 |
| `ExpBackoff.Hit` | nonblocking.go:233-238 | panics exactly when MaxWait is zero; otherwise the wait becomes StartWait and nothing else changes |
| `ExpBackoff.Miss` | nonblocking.go:240-256 | panics exactly when MaxWait is zero; otherwise it sleeps for the old wait, the new wait never exceeds MaxWait, and only the wait changes |
| `ExpBackoff.MissIsIdeal` | nonblocking.go:249-255 | without overflow, the new wait is `min((wait\|1) * 2^exp, MaxWait)` in exact arithmetic |
| `ExpBackoff.MissInRange` | nonblocking.go:249-255 | from a non-negative wait, after a Miss `1 <= Wait <= MaxWait` |
| `ExpBackoff.MissFixedPoint` | nonblocking.go:252-254 | a wait equal to MaxWait is a fixed point of Miss |
| `ExpBackoff.MissNonDecreasing` | nonblocking.go:249-255 | between 0 and MaxWait, Miss never shrinks the wait |
| `ExpBackoff.MissMonotone` | nonblocking.go:249-255 | a larger starting wait never gives a smaller next wait |
| `ExpBackoff.PumpBackoffStable` | nonblocking.go:80-83 | with the pump's 150 ms ceiling and 1 ns start, Hit and Miss never panic, never overflow and keep the wait within 0..150 ms |
| `Mode.Halves` | mode.go:52-62 | non-zero exactly for the three named settings, where it is 2, 3 and 4 half bits |
| `Mode.StopBitsString` | mode.go:37-49 | "Unknown" exactly when Halves is 0; otherwise the decimal reading of the half-bit count ("1", "1.5", "2") |
| `Mode.StopBitsStringInjective` | mode.go:37-49 | distinct named stop-bit settings render differently |
| `Mode.ParityString` | mode.go:77-93 | "Unknown" exactly for values outside the five named parities |
| `Mode.ParityStringInjective` | mode.go:77-93 | distinct named parities render differently |
| `Mode.ParityChar` | mode.go:95-100 | for a named parity, the first letter of its name; '?' for every other value |
| `Shared.NewNonBlocking` | nonblocking.go:54-71 | fails on a nil stream, and otherwise on any negative field; zero sizes become 32768 and 1024, so a constructed adapter has positive sizes, an empty buffer and an empty slot |
| `Shared.Buffered` | nonblocking.go:168-173 | the number of bytes waiting: the least room with which a take empties the buffer |
| `Shared.BufferedAfter` | nonblocking.go:168-173 | Buffered after any run equals Buffered before, plus the bytes appended, minus the bytes removed |
| `Shared.BufWrite` | nonblocking.go:203-207 | appends exactly the given bytes at the tail and changes nothing else |
| `Shared.Take` | nonblocking.go:164 | removes exactly `min(len(b), Buffered())` bytes from the head; the bytes taken followed by what remains are the old buffer; the log records them under the taker's fate only |
| `Shared.Reset` | nonblocking.go:184-188 | empties the buffer, leaves the slot and the configuration alone, and logs every dropped byte as discarded |
| `Shared.SetErr` | nonblocking.go:197-201 | the slot holds the given error afterwards, whatever it held before; nothing else changes |
| `Shared.Close` | nonblocking.go:176-179 | the slot becomes EOF and the buffer is untouched |
| `Shared.FastRead` | nonblocking.go:115-121 | takes `min(len(b), Buffered())` bytes from the head and returns the slot's current error alongside, without waiting |
| `Shared.FastReadBytesWithError` | nonblocking.go:119-120 | with bytes buffered and the slot at EOF, the fast path returns bytes and EOF together |
| `Shared.ResetThenFastReadIsEmpty` | nonblocking.go:184-188 | after Reset, a read returns none of the stale bytes |
| `Pump.Payload` | nonblocking.go:91-92 | a read contributes at most `MaxReadSize` bytes: exactly the returned bytes when they fit the read buffer, none when the read panics or claims more than the buffer holds |
| `Pump.Crash` | nonblocking.go:74-79 | a recovered panic sets the slot to the pump-failure error and ends the goroutine, with the buffer untouched |
| `Pump.AfterMiss` | nonblocking.go:97-100 | the backoff becomes Miss's next wait and the loop continues; only when Miss panics does the recovered panic set the pump-failure error and end the goroutine; the buffer is untouched |
| `Pump.Check` | nonblocking.go:85 | the loop test: the goroutine returns exactly when the slot is set and goes on to the buffer test exactly when it is empty; nothing else changes |
| `Pump.Gauge` | nonblocking.go:86-91 | the buffer test: a read is issued exactly when the buffer is below the threshold; otherwise the backoff grows by a Miss and the pump returns to the loop test; a read is issued with the backoff unchanged; the buffer and the slot are untouched |
| `Pump.Complete` | nonblocking.go:91-102 | appends exactly the read's payload at the tail; the slot is set here only by a panic or an oversized read; end of stream, and only end of stream, leaves the pump about to set the slot; the goroutine returns exactly when the slot becomes set; the buffer stays under `maxBuffered + MaxReadSize` |
| `Pump.Finish` | nonblocking.go:93-95 | the second lock on end of stream: the slot becomes EOF whatever it held, the goroutine returns, and nothing else changes |
| `Pump.Iteration` | nonblocking.go:85-103 | one iteration keeps the pump invariant and only appends |
| `Pump.IterationThrottles` | nonblocking.go:86-89 | at or above the threshold the iteration performs no read and only grows the backoff |
| `Pump.IterationAppends` | nonblocking.go:91-92 | below the threshold the iteration appends exactly the returned bytes, also when the read reported end of stream |
| `Pump.IterationStopsAtEndOfStream` | nonblocking.go:93-96 | with no other thread acting, end of stream sets the slot to EOF and ends the goroutine |
| `Pump.IterationBacksOff` | nonblocking.go:97-102 | an empty read calls Miss and a non-empty one calls Hit; the loop goes on |
| `Pump.IterationIgnoresOtherErrors` | nonblocking.go:93 | a read error other than end of stream makes no difference |
| `Pump.IterationOversizedReadFails` | nonblocking.go:91-92 | a read claiming more bytes than its buffer panics on the slice, and the recovered panic ends the goroutine with nothing appended |
| `Pump.IterationStopsOnError` | nonblocking.go:85 | once the slot is set, the next check ends the goroutine and changes nothing else |
| `System.Start` | nonblocking.go:67-84 | the freshly started adapter and goroutine satisfy the invariant, which includes the buffer bound |
| `System.PumpMove` | nonblocking.go:85-102 | the pump's next step keeps every run property, only appends, consumes at most the next stream result, and only from a read it issued; the loop test leaves the state alone and moves on to the exit or the buffer test as the slot dictates |
| `System.PumpReadsOnlyBelowThreshold` | nonblocking.go:86-91 | after the loop test, the pump issues a read exactly when the buffer is below the threshold, and otherwise returns to the loop test |
| `System.PumpReadsAfterClose` | nonblocking.go:85-91 | a Close and a take between the loop test and the buffer test leave the slot at EOF, and the pump still issues a read |
| `System.TakeFollows` | nonblocking.go:156-165 | a take by any caller keeps the invariant and the FIFO law |
| `System.ApplyAct` | nonblocking.go:176-188 | an action of another thread keeps every run property and never takes the caller's bytes; only Reset discards; Close leaves the slot at EOF; Reset leaves the buffer empty |
| `Deadline.Sleep` | nonblocking.go:153 | one polling sleep lasts at most 100 ms and at most the time left |
| `Deadline.TakeBuffered` | nonblocking.go:156-165 | after the race window the caller takes exactly `min(len(b), Buffered())` bytes from the head of the buffer as the window left it, with no error and no time passing; an empty result, left by another thread emptying the buffer, uses up a gap |
| `Deadline.Doze` | nonblocking.go:146-154 | a polling sleep moves the clock by exactly `min(100ms, until)` plus the gap's overrun, so the loop never spins; it keeps every run property, gives the caller no bytes, and never moves the clock past the deadline plus the largest overrun |
| `Deadline.ReadNext` | nonblocking.go:144-166 | a fetch keeps every run property, returns at most `len(b)` bytes and exactly the caller's chunks, ends within the deadline plus the largest overrun, and fails only with DeadlineExceeded after the deadline or with the slot's error before it; a failing fetch returns no bytes; one that returns neither bytes nor an error has lost a race, which uses up a gap; as sole consumer, every byte removed is the caller's |
| `Deadline.Poll` | nonblocking.go:150-154 | the polling loop from the slot test on keeps the same promises as a fetch |
| `Deadline.Window` | nonblocking.go:145-150 | what other threads do between two locked steps keeps every run property, takes none of the caller's bytes, and removes nothing when the caller is the sole consumer |
| `Deadline.ReadNextDeadlineFirst` | nonblocking.go:147-149 | with an empty buffer and the deadline passed, a fetch returns DeadlineExceeded even when the slot is set |
| `Deadline.ReadNextEnded` | nonblocking.go:150-151 | with an empty buffer and the deadline not passed, a slot set after the window ends the fetch at once with its error and no bytes |
| `Deadline.EndedWithBytesBuffered` | nonblocking.go:145-151 | when the pump's last read completes between the buffer test and the slot test, the fetch and `ReadDeadline` fail with EOF and no bytes while those bytes are buffered |
| `Deadline.ReadNextTakesHead` | nonblocking.go:164 | with no other thread in the window, a fetch takes exactly `min(len(b), Buffered())` bytes from the head |
| `Deadline.ReadNextQuietEmpty` | nonblocking.go:146-155 | with an empty buffer and no other thread acting, a fetch polls past the deadline or returns the slot's error at once, and changes nothing |
| `Deadline.Fill` | nonblocking.go:128-132 | the fill loop keeps every run property, fills `b` completely unless a fetch fails, and with no other thread acting takes exactly the head of the buffer |
| `Deadline.ReadDeadline` | nonblocking.go:127-142 | bytes delivered are never returned with an error; with room and nothing delivered, the failing fetch's error is returned; with no room, the slot's error is returned; DeadlineExceeded only after the deadline |
| `Deadline.ReadDeadlineQuiet` | nonblocking.go:127-142 | with no other thread acting, the call returns the head of the buffer and defers the error when bytes were delivered; with nothing buffered it waits out the deadline or returns the slot's error at once |
| `Deadline.DeferredError` | nonblocking.go:133-134 | the call that drains the last bytes of a finished stream returns them with no error, and the next call returns the end-of-stream error |
| `Deadline.DrainedFailsAtOnce` | nonblocking.go:144-152 | once the slot is set and the buffer drained, a read fails at once without sleeping, with DeadlineExceeded exactly when the deadline has passed, and with nothing else acting, changes nothing |
| `Deadline.ReadNow` | nonblocking.go:115-121 | the zero-timeout path does not wait, takes the head of the buffer, returns the slot's error alongside, and every byte it removes is the caller's |
| `Deadline.LastBytesBeforeEnd` | nonblocking.go:92-94 | a zero-timeout read between the pump's append of the last bytes and its setting of EOF returns those bytes with no error; the next one returns EOF and no bytes |
| `Deadline.Read` | nonblocking.go:114-124 | returns at most `len(b)` bytes, exactly the caller's chunks; without a timeout it never waits; with one, an error comes only with no bytes, and the call finishes by now plus the timeout plus the largest overrun |
| `Trace.Integrity` | nonblocking.go:203-207 | from construction on: the bytes removed in order, followed by the buffer, are exactly the bytes the pump read; the pump consumed the stream from its front; the caller got exactly its own chunks; the buffer bound held |
| `Trace.SoloIntegrity` | nonblocking.go:156-165 | with no other consumer and no Reset, the bytes returned to the caller, followed by the buffer, are exactly the bytes the pump read, in order, with nothing lost or duplicated |
| `Trace.Run` | nonblocking.go:176-179 | every run keeps the run properties and gives the caller exactly its own chunks; as sole consumer, every byte removed is the caller's; after a Close anywhere in a run, the slot is set at its end |

## Left out

- `Write` (nonblocking.go:109-111) passes through to the underlying stream and touches no adapter state.
- `Close` does not model closing the underlying stream or the error that closing returns. Whether that close interrupts a blocked read is up to the stream. The model covers both outcomes: the pump may still be blocked, and when its read returns it appends the bytes and exits.
- Goroutines and the mutex become an interleaving of atomic actions. Each locked call is one atomic step, and other threads may act between two of them: the pump's slot test, its buffer test, its append after a read and its setting of EOF at end of stream are separate steps, and in `readNext` the actions of one gap happen between the buffer test and the slot test, and before the take. Between one fetch of the `ReadDeadline` loop and the buffer test of the next there is no window: actions that Go lets happen there are placed in the next window instead, which reaches the same bytes and errors, with only the clock possibly differing.
- The pump's own sleeps inside `Miss` are returned as durations and are not put on the caller's clock. The pump's timing is expressed only by where its steps fall in a run.
- `time.Now`, `time.Until` and `time.Sleep` become an integer clock. The overrun of each sleep is given by the gaps. The windows between two locked steps take no time. The overflow of `time.Now().Add` for very large timeouts is not modelled.
- The text of the recovered panic's error (nonblocking.go:77) is not modelled. All panics give one pump-failure value.
- Errors that wrap `io.EOF` are represented by the end-of-stream status. Which concrete error values the stream returns is outside the model.
- The error that `bytes.Buffer.Read` reports on an empty buffer is not modelled, because every caller ignores it.
- `Mode.ParityString`: the contract states the "Unknown" case, and through `Mode.ParityChar` the initial letter of each name, but not the five full names, because listing the five literals would only repeat the body.
- `Deadline.ReadNext`: does not promise that the slot's error comes only once the buffer is drained, because the buffer and the slot are tested under separate locks (nonblocking.go:145-151); `Deadline.EndedWithBytesBuffered` shows a fetch that fails with EOF while bytes are buffered.
- `Deadline.Read`: with a timeout, the contract states the bound on the clock and the error rule, not the whole `ReadDeadline` contract that it inherits.
- cereal.go (the openers for the third-party serial packages, port enumeration, `ResetInputBuffer`) is not part of this model.
- sers_arm.go, sers_noarm.go and sers_nocgo.go are not part of this model. They are build-tag stubs over a third-party package.
- The tests in cereal_test.go are not part of this model. They open real hardware.

=== FILE: backoff.dfy ===
/** The exponential backoff the pump uses to avoid spinning (nonblocking.go,
    `exponentialBackoff`). Durations are Go `time.Duration` values, i.e.
    int64 nanoseconds; `Miss` shifts an int64 and can wrap, which is written
    out here. The sleep `Miss` performs is returned instead of performed. */
module ExpBackoff {
  import opened Basics

  datatype Backoff = Backoff(
    wait: int64,        // what the next Miss sleeps for
    maxWait: int64,     // ceiling for wait after a Miss
    startWait: int64,   // the value Hit resets wait to
    expMinusOne: uint32 // shift applied by Miss, minus one
  )

  /** Both operations panic on an unconfigured (zero) ceiling. */
  datatype Panic = MaxWaitZero

  /** What a Miss did: the duration it slept for and the state after it. */
  datatype Missed = Missed(slept: int64, next: Backoff)

  /** Go: `wait | 1` on an int64 (two's complement): the least odd value
      at or above `w`. */
  function Or1(w: int64): (r: int64)
    ensures r % 2 == 1
    ensures r == w || r == w + 1
  {
    if w % 2 == 0 then w + 1 else w
  }

  /** Go: `w << s` for an int64 `w` and an unsigned count `s`; a count of
      64 or more shifts every bit out. */
  function Shl64(w: int64, s: nat): (r: int64)
    ensures s < 64 && -TWO_63 <= w * Pow2(s) < TWO_63 ==> r == w * Pow2(s)
    ensures s >= 64 ==> r == 0
  {
    if s >= 64 then 0 else Wrap64(w * Pow2(s))
  }

  /** The shift Miss applies: `ExpMinusOne + 1` in uint32 arithmetic, so
      the largest ExpMinusOne wraps to a shift of 0. */
  function Exp(b: Backoff): (e: uint32)
    ensures b.expMinusOne < TWO_32 - 1 ==> e == b.expMinusOne + 1
    ensures b.expMinusOne == TWO_32 - 1 ==> e == 0
  {
    (b.expMinusOne + 1) % TWO_32
  }

  function Hit(b: Backoff): (r: Result<Backoff, Panic>)
    ensures r.Failure? <==> b.maxWait == 0
    ensures r.Success? ==> r.value.wait == b.startWait
    ensures r.Success? ==> r.value.(wait := b.wait) == b
  {
    if b.maxWait == 0 then Failure(MaxWaitZero) else Success(b.(wait := b.startWait))
  }

  /** Sleep for the current wait, then grow it: `(wait | 1) << exp`, clamped
      to the ceiling. */
  function Miss(b: Backoff): (r: Result<Missed, Panic>)
    ensures r.Failure? <==> b.maxWait == 0
    ensures r.Success? ==> r.value.slept == b.wait
    ensures r.Success? ==> r.value.next.wait <= b.maxWait
    ensures r.Success? ==> r.value.next.(wait := b.wait) == b
  {
    if b.maxWait == 0 then Failure(MaxWaitZero)
    else
      var grown := Shl64(Or1(b.wait), Exp(b));
      Success(Missed(b.wait, b.(wait := if grown > b.maxWait then b.maxWait else grown)))
  }

  /** The shift in Miss does not leave the int64 range. */
  predicate NoOverflow(b: Backoff) {
    Exp(b) < 64 && Or1(b.wait) * Pow2(Exp(b)) < TWO_63
  }

  /** The wait Miss computes, as mathematics: the least odd value at or above
      the wait, doubled `Exp` times, then clamped. */
  function IdealNext(b: Backoff): int {
    Min(Or1(b.wait) * Pow2(Exp(b)), b.maxWait)
  }

  lemma MissIsIdeal(b: Backoff)
    requires b.maxWait != 0 && 0 <= b.wait && NoOverflow(b)
    ensures Miss(b).Success? && Miss(b).value.next.wait == IdealNext(b)
  {
    assert 0 <= Or1(b.wait) * Pow2(Exp(b));
  }

  /** After a Miss from a non-negative wait, the wait lies in 1..MaxWait. */
  lemma MissInRange(b: Backoff)
    requires 1 <= b.maxWait && 0 <= b.wait && NoOverflow(b)
    ensures Miss(b).Success?
    ensures 1 <= Miss(b).value.next.wait <= b.maxWait
  {
    MissIsIdeal(b);
    assert Or1(b.wait) * Pow2(Exp(b)) >= 1 by {
      MulAtLeastOne(Or1(b.wait), Pow2(Exp(b)));
    }
  }

  /** A wait equal to the ceiling is a fixed point of Miss. */
  lemma MissFixedPoint(b: Backoff)
    requires 1 <= b.maxWait && b.wait == b.maxWait && NoOverflow(b)
    ensures Miss(b).Success? && Miss(b).value.next == b
  {
    MissIsIdeal(b);
    MulAtLeastOne(Or1(b.wait), Pow2(Exp(b)));
  }

  /** Below the ceiling, Miss never shrinks the wait. */
  lemma MissNonDecreasing(b: Backoff)
    requires 0 <= b.wait <= b.maxWait && b.maxWait != 0 && NoOverflow(b)
    ensures Miss(b).Success? && b.wait <= Miss(b).value.next.wait
  {
    MissIsIdeal(b);
    MulAtLeastOne(Or1(b.wait), Pow2(Exp(b)));
  }

  /** Miss is monotone in the wait it starts from. */
  lemma MissMonotone(b: Backoff, c: Backoff)
    requires c == b.(wait := c.wait)
    requires b.maxWait != 0 && 0 <= b.wait <= c.wait && NoOverflow(c)
    ensures NoOverflow(b)
    ensures Miss(b).value.next.wait <= Miss(c).value.next.wait
  {
    assert Or1(b.wait) <= Or1(c.wait);
    MulMonotone(Or1(b.wait), Or1(c.wait), Pow2(Exp(b)));
    MissIsIdeal(b);
    MissIsIdeal(c);
  }

  lemma MulAtLeastOne(x: int, y: int)
    requires x >= 1 && y >= 1
    ensures x * y >= x && x * y >= 1
  {
  }

  lemma MulMonotone(x: int, y: int, k: int)
    requires 0 <= x <= y && k >= 1
    ensures 0 <= x * k <= y * k
  {
  }

  /** The backoff the pump goroutine uses: 150 ms ceiling, 1 ns reset value,
      doubling (ExpMinusOne = 0), starting from a zero wait. */
  const PumpMaxWait: int64 := 150_000_000
  const PumpStartWait: int64 := 1
  const PumpInitial: Backoff := Backoff(0, PumpMaxWait, PumpStartWait, 0)

  /** The pump's backoff keeps its configuration and a wait in 0..MaxWait. */
  predicate PumpBackoff(b: Backoff) {
    b.maxWait == PumpMaxWait && b.startWait == PumpStartWait && b.expMinusOne == 0
    && 0 <= b.wait <= b.maxWait
  }

  /** With the pump's configuration neither operation panics or overflows,
      and both keep the wait within bounds. */
  lemma PumpBackoffStable(b: Backoff)
    requires PumpBackoff(b)
    ensures Hit(b).Success? && PumpBackoff(Hit(b).value)
    ensures Miss(b).Success? && PumpBackoff(Miss(b).value.next)
    ensures 1 <= Miss(b).value.next.wait
  {
    assert Exp(b) == 1;
    assert NoOverflow(b);
    MissInRange(b);
  }

  lemma PumpInitialIsPumpBackoff()
    ensures PumpBackoff(PumpInitial)
  {
  }
}

=== FILE: basics.dfy ===
/** Shared vocabulary of the model: optional values, results that carry a
    failure instead of a Go panic, bytes and Go's 64-bit signed integers. */
module Basics {

  /** Go's `nil`-or-value, used for the adapter's error slot. */
  datatype Option<+T> = None | Some(value: T)

  /** A Go call that either returns normally or panics. */
  datatype Result<+T, +E> = Success(value: T) | Failure(error: E)

  /** Go's `byte`. */
  type byte = x: int | 0 <= x < 256

  const TWO_32: int := 0x1_0000_0000
  const TWO_63: int := 0x8000_0000_0000_0000
  const TWO_64: int := 0x1_0000_0000_0000_0000

  /** Go's `int64`, the representation of `time.Duration`. */
  type int64 = x: int | -TWO_63 <= x < TWO_63

  /** Go's `uint32`. */
  type uint32 = x: int | 0 <= x < TWO_32

  function Min(a: int, b: int): (m: int)
    ensures m <= a && m <= b
    ensures m == a || m == b
  {
    if a < b then a else b
  }

  /** The int64 whose two's-complement bit pattern is the low 64 bits of `x`. */
  function Wrap64(x: int): (r: int64)
    ensures (r - x) % TWO_64 == 0
    ensures -TWO_63 <= x < TWO_63 ==> r == x
  {
    (x + TWO_63) % TWO_64 - TWO_63
  }

  function Pow2(e: nat): (r: int)
    ensures r >= 1
  {
    if e == 0 then 1 else 2 * Pow2(e - 1)
  }
}

=== FILE: deadline.dfy ===
/** The caller-facing read loop of nonblocking.go: `Read`, `ReadDeadline`
    and `readNext`, over an integer clock (nanoseconds).

    A caller holds the mutex only for single atomic operations. Whenever it
    has let go of it for a while, other threads may act: while it sleeps in
    the polling loop, in the window between seeing a non-empty buffer and
    locking it to take bytes, and in the window between seeing an empty
    buffer and testing the error slot. Each such gap is given as a `Gap`: the atomic
    actions that happen in it, and for a sleep how far past the requested
    duration the caller wakes. When the given gaps run out, every further gap
    is `Idle`: nothing happens and a sleep overruns by one clock unit, so the
    clock keeps moving as a real clock does. */
module Deadline {
  import opened Basics
  import opened Shared
  import opened Pump
  import opened System

  /** Go: `100*time.Millisecond`, in nanoseconds. */
  const PollInterval: int := 100_000_000

  /** The errors a read returns: the deadline passed with nothing to read,
      or the terminal error from the slot. */
  datatype ReadError = DeadlineExceeded | Ended(t: Terminal)

  datatype Gap = Gap(late: nat, acts: seq<Act>)

  const Idle: Gap := Gap(1, [])

  function Next(gaps: seq<Gap>): Gap {
    if gaps == [] then Idle else gaps[0]
  }

  function Rest(gaps: seq<Gap>): (r: seq<Gap>)
    ensures IsSuffix(r, gaps) && (gaps != [] ==> |r| < |gaps|)
  {
    if gaps == [] then [] else gaps[1..]
  }

  predicate IsSuffix(a: seq<Gap>, b: seq<Gap>) {
    |a| <= |b| && a == b[|b| - |a|..]
  }

  lemma SuffixTransitive(a: seq<Gap>, b: seq<Gap>, c: seq<Gap>)
    requires IsSuffix(a, b) && IsSuffix(b, c)
    ensures IsSuffix(a, c)
  {
    assert c[|c| - |b|..][|b| - |a|..] == c[|c| - |a|..];
  }

  /** The largest overrun of any sleep the gaps describe, the Idle one
      included. */
  function Lateness(gaps: seq<Gap>): (l: nat)
    ensures l >= 1 && l >= Next(gaps).late
  {
    if gaps == [] then 1
    else
      var rest := Lateness(gaps[1..]);
      if gaps[0].late > rest then gaps[0].late else rest
  }

  lemma {:induction false} LatenessSuffix(a: seq<Gap>, b: seq<Gap>)
    requires IsSuffix(a, b)
    ensures Lateness(a) <= Lateness(b)
    decreases |b|
  {
    if |a| < |b| {
      assert IsSuffix(a, b[1..]) by {
        assert b[1..][|b| - 1 - |a|..] == b[|b| - |a|..];
      }
      LatenessSuffix(a, b[1..]);
    } else {
      assert a == b;
    }
  }

  /** Go: `minD(100*time.Millisecond, until)`: one polling sleep never
      exceeds the poll interval nor the time left. */
  function Sleep(until: int): (d: int)
    requires until >= 0
    ensures 0 <= d <= PollInterval && d <= until
    ensures d == PollInterval || d == until
  {
    Min(PollInterval, until)
  }

  /** Whether no other thread acts in any of the gaps. */
  predicate QuietGaps(gaps: seq<Gap>) {
    forall i :: 0 <= i < |gaps| ==> gaps[i].acts == []
  }

  lemma QuietRest(gaps: seq<Gap>)
    requires QuietGaps(gaps)
    ensures QuietGaps(Rest(gaps)) && Next(gaps).acts == []
  {
    if gaps != [] {
      assert forall i :: 0 <= i < |gaps[1..]| ==> gaps[1..][i] == gaps[i + 1];
    }
  }

  lemma QuietSuffix(a: seq<Gap>, b: seq<Gap>)
    requires QuietGaps(b) && IsSuffix(a, b)
    ensures QuietGaps(a)
  {
    assert forall i :: 0 <= i < |a| ==> a[i] == b[|b| - |a| + i];
  }

  /** Whether only the pump and Close act in every gap: then the caller is
      the buffer's only consumer. */
  predicate SoloGaps(gaps: seq<Gap>) {
    forall i :: 0 <= i < |gaps| ==> Solo(gaps[i].acts)
  }

  lemma SoloRest(gaps: seq<Gap>)
    requires SoloGaps(gaps)
    ensures SoloGaps(Rest(gaps)) && Solo(Next(gaps).acts)
  {
    if gaps != [] {
      assert forall i :: 0 <= i < |gaps[1..]| ==> gaps[1..][i] == gaps[i + 1];
    }
  }

  lemma SoloSuffix(a: seq<Gap>, b: seq<Gap>)
    requires SoloGaps(b) && IsSuffix(a, b)
    ensures SoloGaps(a)
  {
    assert forall i :: 0 <= i < |a| ==> a[i] == b[|b| - |a| + i];
  }

  /** What a fetch, a fill loop or a read leaves behind: the system run, the
      bytes handed to the caller, the error returned, the clock, the gaps not
      yet used, and (for ReadDeadline) the error of the fetch that ended the
      fill loop. */
  datatype Out = Out(run: Applied, got: seq<byte>, err: Option<ReadError>, now: int, gaps: seq<Gap>, fetchErr: Option<ReadError>)

  /** The bytes the caller under study received in a run. */
  function Mine(r: Applied): seq<byte> {
    BytesWith(r.log.removed, Caller)
  }

  /** What every fetch, fill loop and read guarantees about its run. */
  predicate Sound(s: Sys, room: nat, deadline: int, now: int, gaps: seq<Gap>, r: Out) {
    && Follows(s, r.run)
    && Mine(r.run) == r.got && |r.got| <= room
    && now <= r.now <= Max(now, deadline + Lateness(gaps))
    && IsSuffix(r.gaps, gaps)
  }

  /** With the caller the only consumer, every byte that left the buffer
      went to it. */
  predicate SoloSound(gaps: seq<Gap>, r: Out) {
    SoloGaps(gaps) ==> Flatten(r.run.log.removed) == r.got
  }

  /** How a fetch fails: DeadlineExceeded only once the deadline has passed;
      the slot's error only before, the deadline being checked first. */
  predicate FailsInOrder(deadline: int, now: int, sys: Sys, err: Option<ReadError>) {
    && (err == Some(DeadlineExceeded) ==> now > deadline)
    && (err.Some? && err.value.Ended? ==> now <= deadline && sys.nb.errfield == Some(err.value.t))
  }

  function Max(a: int, b: int): int {
    if a < b then b else a
  }

  lemma SoundChain(s: Sys, a: Applied, r: Out, room: nat, deadline: int, now: int, gaps: seq<Gap>,
                   now1: int, gaps1: seq<Gap>)
    requires Follows(s, a) && Mine(a) == []
    requires IsSuffix(gaps1, gaps) && now <= now1 <= Max(now, deadline + Lateness(gaps))
    requires Sound(a.sys, room, deadline, now1, gaps1, r)
    ensures Sound(s, room, deadline, now, gaps, r.(run := Chain(a, r.run)))
    ensures Chain(a, r.run).sys == r.run.sys
  {
    FollowsCompose(s, a, r.run);
    BytesWithAppend(a.log.removed, r.run.log.removed, Caller);
    SuffixTransitive(r.gaps, gaps1, gaps);
    LatenessSuffix(gaps1, gaps);
  }

  /** A fetch that returns at once with `err` and nothing else: no bytes,
      no action, no time. */
  function Stay(s: Sys, room: nat, deadline: int, now: int, gaps: seq<Gap>, err: Option<ReadError>): (r: Out)
    requires Inv(s) && FailsInOrder(deadline, now, s, err)
    ensures Sound(s, room, deadline, now, gaps, r)
    ensures FailsInOrder(deadline, r.now, r.run.sys, r.err)
    ensures SoloSound(gaps, r)
    ensures r.run.sys == s && r.got == [] && r.err == err && r.now == now && r.gaps == gaps
  {
    FollowsNothing(s);
    assert gaps[|gaps| - |gaps|..] == gaps;
    Out(Applied(s, Quiet, []), [], err, now, gaps, None)
  }

  /** What other threads do in a window in which the caller holds no lock
      and does not sleep: the next gap's actions, with no time passing. */
  function Window(s: Sys, gaps: seq<Gap>): (w: Applied)
    requires Inv(s)
    ensures Follows(s, w) && Mine(w) == []
    ensures SoloGaps(gaps) ==> w.log.removed == []
    ensures Next(gaps).acts == [] ==> w == Applied(s, Quiet, [])
  {
    assert SoloGaps(gaps) ==> Solo(Next(gaps).acts) by {
      if SoloGaps(gaps) {
        SoloRest(gaps);
      }
    }
    ApplyActs(s, Next(gaps).acts)
  }

  /** readNext once it has seen bytes in the buffer (nonblocking.go:156-165):
      other threads act in the window before the mutex is taken; then take
      as many bytes as fit, or nothing if the buffer was emptied meanwhile. */
  function TakeBuffered(s: Sys, room: nat, deadline: int, now: int, gaps: seq<Gap>): (r: Out)
    requires Inv(s) && room > 0 && |s.nb.buf| > 0
    ensures Sound(s, room, deadline, now, gaps, r)
    ensures SoloSound(gaps, r)
    ensures r.err.None? && r.now == now
    ensures r.got == [] ==> |r.gaps| < |gaps|
    ensures var w := Window(s, gaps).sys;
      && r.got == w.nb.buf[..Min(room, |w.nb.buf|)]
      && r.run.sys == w.(nb := w.nb.(buf := w.nb.buf[Min(room, |w.nb.buf|)..]))
  {
    var a := Window(s, gaps);
    WindowSolo(s, room, gaps);
    if |a.sys.nb.buf| == 0 then
      assert gaps != [];
      Out(a, [], None, now, Rest(gaps), None)
    else
      var t := Take(a.sys.nb, room, Caller);
      WindowTake(s, room, deadline, now, gaps);
      Out(Chain(a, Applied(a.sys.(nb := t.nb), t.log, [])), t.got, None, now, Rest(gaps), None)
  }

  /** The take after the race window is sound from before the window. */
  lemma WindowTake(s: Sys, room: nat, deadline: int, now: int, gaps: seq<Gap>)
    requires Inv(s) && room > 0
    ensures var a := Window(s, gaps);
      var t := Take(a.sys.nb, room, Caller);
      && Sound(s, room, deadline, now, gaps, Out(Chain(a, Applied(a.sys.(nb := t.nb), t.log, [])), t.got, None, now, Rest(gaps), None))
      && (|a.sys.nb.buf| > 0 ==> t.got != [])
      && t.got == a.sys.nb.buf[..Min(room, |a.sys.nb.buf|)]
      && a.sys.(nb := t.nb) == a.sys.(nb := a.sys.nb.(buf := a.sys.nb.buf[Min(room, |a.sys.nb.buf|)..]))
  {
    var a := Window(s, gaps);
    var t := Take(a.sys.nb, room, Caller);
    var b := Applied(a.sys.(nb := t.nb), t.log, []);
    TakeFollows(a.sys, room, Caller);
    FollowsCompose(s, a, b);
    BytesWithAppend(a.log.removed, b.log.removed, Caller);
    var k := Min(room, |a.sys.nb.buf|);
    assert t.got == a.sys.nb.buf[..k] && t.nb.buf == a.sys.nb.buf[k..] by {
      assert t.got + t.nb.buf == a.sys.nb.buf && |t.got| == k;
    }
  }

  /** With only the pump and Close acting in the window, the take is the
      only removal. */
  lemma WindowSolo(s: Sys, room: nat, gaps: seq<Gap>)
    requires Inv(s)
    ensures var a := Window(s, gaps);
      SoloGaps(gaps) ==>
        && a.log.removed == []
        && Flatten(a.log.removed + Take(a.sys.nb, room, Caller).log.removed) == Take(a.sys.nb, room, Caller).got
  {
    if SoloGaps(gaps) {
      SoloRest(gaps);
      var a := Window(s, gaps);
      assert a.log.removed + Take(a.sys.nb, room, Caller).log.removed == Take(a.sys.nb, room, Caller).log.removed;
    }
  }

  datatype Dozed = Dozed(run: Applied, now: int)

  /** One polling sleep of readNext (nonblocking.go:153): the caller sleeps
      `min(100ms, until)`, wakes the gap's overrun later, and meanwhile the
      gap's actions happen. */
  function Doze(s: Sys, deadline: int, now: int, gaps: seq<Gap>): (d: Dozed)
    requires Inv(s) && now <= deadline
    ensures Follows(s, d.run) && Mine(d.run) == []
    ensures now < d.now || gaps != []
    ensures now <= d.now <= deadline + Lateness(gaps)
    ensures SoloGaps(gaps) ==> d.run.log.removed == []
    ensures d.now == now + Sleep(deadline - now) + Next(gaps).late
  {
    assert SoloGaps(gaps) ==> Solo(Next(gaps).acts) by {
      if SoloGaps(gaps) {
        SoloRest(gaps);
      }
    }
    var g := Next(gaps);
    Dozed(ApplyActs(s, g.acts), now + Sleep(deadline - now) + g.late)
  }

  /** A fetch that begins with a polling sleep is sound from before it. */
  lemma DozeChain(s: Sys, room: nat, deadline: int, now: int, gaps: seq<Gap>, rest: Out)
    requires Inv(s) && now <= deadline
    requires Sound(Doze(s, deadline, now, gaps).run.sys, room, deadline, Doze(s, deadline, now, gaps).now, Rest(gaps), rest)
    ensures Sound(s, room, deadline, now, gaps, rest.(run := Chain(Doze(s, deadline, now, gaps).run, rest.run)))
    ensures Chain(Doze(s, deadline, now, gaps).run, rest.run).sys == rest.run.sys
  {
    var d := Doze(s, deadline, now, gaps);
    SoundChain(s, d.run, rest, room, deadline, now, gaps, d.now, Rest(gaps));
  }

  /** A polling sleep of a sole consumer removes nothing. */
  lemma DozeSolo(s: Sys, deadline: int, now: int, gaps: seq<Gap>, rest: Out)
    requires Inv(s) && now <= deadline
    requires SoloSound(Rest(gaps), rest)
    ensures SoloSound(gaps, rest.(run := Chain(Doze(s, deadline, now, gaps).run, rest.run)))
  {
    if SoloGaps(gaps) {
      SoloRest(gaps);
      var d := Doze(s, deadline, now, gaps);
      assert d.run.log.removed + rest.run.log.removed == rest.run.log.removed;
    }
  }

  /** The measure of the time left, for termination. */
  function Clock(deadline: int, now: int): nat {
    if deadline - now + 1 < 0 then 0 else deadline - now + 1
  }

  /** Go: `readNext`. With bytes buffered, take them (TakeBuffered). With an
      empty buffer, return DeadlineExceeded once the deadline has passed;
      otherwise the slot is tested under a lock of its own, so other threads
      may act in between (a window that takes no time), and Poll goes on
      from there. */
  function ReadNext(s: Sys, room: nat, deadline: int, now: int, gaps: seq<Gap>): (r: Out)
    requires Inv(s) && room > 0
    ensures Sound(s, room, deadline, now, gaps, r)
    ensures FailsInOrder(deadline, r.now, r.run.sys, r.err)
    ensures SoloSound(gaps, r)
    ensures r.err.Some? ==> r.got == []
    ensures r.err.None? && r.got == [] ==> |r.gaps| < |gaps|
    decreases |gaps|, Clock(deadline, now), 1
  {
    if |s.nb.buf| != 0 then TakeBuffered(s, room, deadline, now, gaps)
    else if deadline - now < 0 then
      Stay(s, room, deadline, now, gaps, Some(DeadlineExceeded))
    else
      var w := Window(s, gaps);
      var p := Poll(w.sys, room, deadline, now, Rest(gaps));
      WindowChain(s, room, deadline, now, gaps, p);
      Out(Chain(w, p.run), p.got, p.err, p.now, p.gaps, p.fetchErr)
  }

  /** The polling loop of readNext from the test of the slot on
      (nonblocking.go:150-154): the slot's error if one is set, whatever the
      buffer holds by now; otherwise a polling sleep and a fresh look at the
      buffer. */
  function Poll(s: Sys, room: nat, deadline: int, now: int, gaps: seq<Gap>): (r: Out)
    requires Inv(s) && room > 0 && now <= deadline
    ensures Sound(s, room, deadline, now, gaps, r)
    ensures FailsInOrder(deadline, r.now, r.run.sys, r.err)
    ensures SoloSound(gaps, r)
    ensures r.err.Some? ==> r.got == []
    ensures r.err.None? && r.got == [] ==> |r.gaps| < |gaps|
    decreases |gaps|, Clock(deadline, now), 0
  {
    if s.nb.errfield.Some? then
      Stay(s, room, deadline, now, gaps, Some(Ended(s.nb.errfield.value)))
    else
      var d := Doze(s, deadline, now, gaps);
      var rest := ReadNext(d.run.sys, room, deadline, d.now, Rest(gaps));
      DozeChain(s, room, deadline, now, gaps, rest);
      DozeSolo(s, deadline, now, gaps, rest);
      Out(Chain(d.run, rest.run), rest.got, rest.err, rest.now, rest.gaps, rest.fetchErr)
  }

  /** A poll that follows the window before the test of the slot is sound
      from before the window. */
  lemma WindowChain(s: Sys, room: nat, deadline: int, now: int, gaps: seq<Gap>, p: Out)
    requires Inv(s) && now <= deadline
    requires Sound(Window(s, gaps).sys, room, deadline, now, Rest(gaps), p)
    requires SoloSound(Rest(gaps), p)
    ensures Sound(s, room, deadline, now, gaps, p.(run := Chain(Window(s, gaps), p.run)))
    ensures SoloSound(gaps, p.(run := Chain(Window(s, gaps), p.run)))
    ensures Chain(Window(s, gaps), p.run).sys == p.run.sys
  {
    var w := Window(s, gaps);
    SoundChain(s, w, p, room, deadline, now, gaps, now, Rest(gaps));
    if SoloGaps(gaps) {
      SoloSuffix(Rest(gaps), gaps);
      assert w.log.removed + p.run.log.removed == p.run.log.removed;
    }
  }

  /** With nothing buffered, the deadline is checked before the error slot:
      once it has passed, a fetch reports DeadlineExceeded even after end
      of stream, and changes nothing. */
  lemma ReadNextDeadlineFirst(s: Sys, room: nat, deadline: int, now: int, gaps: seq<Gap>)
    requires Inv(s) && room > 0 && |s.nb.buf| == 0 && now > deadline
    ensures var r := ReadNext(s, room, deadline, now, gaps);
      r.err == Some(DeadlineExceeded) && r.got == [] && r.run.sys == s && r.now == now
  {
  }

  /** With nothing buffered and the deadline not yet passed, a slot that is
      set after the window ends the fetch at once with its error, without
      sleeping. */
  lemma ReadNextEnded(s: Sys, room: nat, deadline: int, now: int, gaps: seq<Gap>)
    requires Inv(s) && room > 0 && |s.nb.buf| == 0 && now <= deadline
    requires Window(s, gaps).sys.nb.errfield.Some?
    ensures var r := ReadNext(s, room, deadline, now, gaps);
      var w := Window(s, gaps);
      && r.err == Some(Ended(w.sys.nb.errfield.value)) && r.got == []
      && r.run.sys == w.sys && r.now == now
  {
    var w := Window(s, gaps);
    var p := Poll(w.sys, room, deadline, now, Rest(gaps));
    assert p.run.sys == w.sys;
  }

  /** The slot is tested under a lock of its own after the buffer was seen
      empty. When the pump's last read completes in between, appending its
      bytes and setting the slot to EOF, the fetch fails with EOF although
      those bytes are buffered. */
  lemma EndedWithBytesBuffered(s: Sys, room: nat, deadline: int, now: int, gaps: seq<Gap>, data: seq<byte>)
    requires Inv(s) && room > 0 && |s.nb.buf| == 0 && s.nb.errfield.None? && now <= deadline
    requires s.pump.phase == Reading && 0 < |data| <= s.nb.readSize
    requires s.stream != [] && s.stream[0] == Returned(data, EndOfStream)
    requires Next(gaps).acts == [PumpAct, PumpAct]
    ensures var r := ReadNext(s, room, deadline, now, gaps);
      r.err == Some(Ended(EOF)) && r.got == [] && r.run.sys.nb.buf == data
    ensures var r := ReadDeadline(s, room, deadline, now, gaps);
      r.err == Some(Ended(EOF)) && r.got == [] && Buffered(r.run.sys.nb) == |data|
  {
    var a := ApplyAct(s, PumpAct);
    assert a.sys.nb.buf == data && a.sys.nb.errfield.None? && a.sys.pump.phase == Ending;
    var b := ApplyAct(a.sys, PumpAct);
    assert b.sys.nb.buf == data && b.sys.nb.errfield == Some(EOF);
    assert [PumpAct, PumpAct][1..] == [PumpAct] && [PumpAct][1..] == [];
    var w := ApplyActs(s, [PumpAct, PumpAct]);
    assert ApplyActs(a.sys, [PumpAct]).sys == b.sys;
    assert w.sys == b.sys;
    ReadNextEnded(s, room, deadline, now, gaps);
    assert Fill(s, room, deadline, now, gaps) == ReadNext(s, room, deadline, now, gaps);
  }

  /** With bytes buffered and no other thread in the window, a fetch takes
      `min(room, Buffered())` bytes from the head and leaves the rest. */
  lemma ReadNextTakesHead(s: Sys, room: nat, deadline: int, now: int, gaps: seq<Gap>)
    requires Inv(s) && room > 0 && |s.nb.buf| > 0 && Next(gaps).acts == []
    ensures var r := ReadNext(s, room, deadline, now, gaps);
      && r.err.None? && r.now == now
      && r.got == s.nb.buf[..Min(room, |s.nb.buf|)]
      && r.run.sys == s.(nb := s.nb.(buf := s.nb.buf[Min(room, |s.nb.buf|)..]))
  {
    var a := Window(s, gaps);
    assert a.sys == s;
    var t := Take(s.nb, room, Caller);
    assert t.got == s.nb.buf[..Min(room, |s.nb.buf|)];
  }

  /** The error a fetch on an empty buffer ends with when no other thread
      acts: the slot's error before the deadline, DeadlineExceeded after. */
  function QuietFailure(s: Sys, deadline: int, now: int): ReadError {
    if now <= deadline && s.nb.errfield.Some? then Ended(s.nb.errfield.value) else DeadlineExceeded
  }

  /** With nothing buffered and no other thread acting, nothing can arrive:
      a fetch polls until the deadline has passed, or returns the slot's
      error at once, and leaves the system as it was. */
  lemma {:induction false} ReadNextQuietEmpty(s: Sys, room: nat, deadline: int, now: int, gaps: seq<Gap>)
    requires Inv(s) && room > 0 && |s.nb.buf| == 0 && QuietGaps(gaps)
    ensures var r := ReadNext(s, room, deadline, now, gaps);
      && r.got == [] && r.run.sys == s
      && r.err == Some(QuietFailure(s, deadline, now))
      && (if s.nb.errfield.None? && now <= deadline then deadline < r.now else r.now == now)
    decreases |gaps|, Clock(deadline, now)
  {
    if deadline - now >= 0 {
      QuietWindow(s, room, deadline, now, gaps);
      QuietRest(gaps);
      var p := Poll(s, room, deadline, now, Rest(gaps));
      if s.nb.errfield.None? {
        QuietRest(Rest(gaps));
        QuietDoze(s, room, deadline, now, Rest(gaps));
        var d := Doze(s, deadline, now, Rest(gaps));
        var rest := ReadNext(s, room, deadline, d.now, Rest(Rest(gaps)));
        ReadNextQuietEmpty(s, room, deadline, d.now, Rest(Rest(gaps)));
        assert deadline < rest.now && rest.err == Some(DeadlineExceeded) by {
          if d.now > deadline {
            assert rest.now == d.now;
          }
        }
        assert p.got == [] && p.run.sys == s && p.err == Some(DeadlineExceeded) && deadline < p.now;
      } else {
        assert p.got == [] && p.run.sys == s && p.err == Some(Ended(s.nb.errfield.value)) && p.now == now;
      }
    }
  }

  /** A quiet window changes nothing: the fetch is the poll from the same
      state. */
  lemma QuietWindow(s: Sys, room: nat, deadline: int, now: int, gaps: seq<Gap>)
    requires Inv(s) && room > 0 && |s.nb.buf| == 0 && now <= deadline && Next(gaps).acts == []
    ensures var r := ReadNext(s, room, deadline, now, gaps);
      var p := Poll(s, room, deadline, now, Rest(gaps));
      r.got == p.got && r.run.sys == p.run.sys && r.err == p.err && r.now == p.now
  {
    assert Window(s, gaps).sys == s;
  }

  /** A quiet poll with an empty slot sleeps and looks again, the state
      unchanged. */
  lemma QuietDoze(s: Sys, room: nat, deadline: int, now: int, gaps: seq<Gap>)
    requires Inv(s) && room > 0 && s.nb.errfield.None? && now <= deadline && Next(gaps).acts == []
    ensures var d := Doze(s, deadline, now, gaps);
      var p := Poll(s, room, deadline, now, gaps);
      var r := ReadNext(s, room, deadline, d.now, Rest(gaps));
      && d.run.sys == s
      && r.got == p.got && r.run.sys == p.run.sys && r.err == p.err && r.now == p.now
  {
    var d := Doze(s, deadline, now, gaps);
    assert d.run.sys == s;
  }

  /** Go: the loop of `ReadDeadline` (nonblocking.go:128-132): fetch until
      `room` bytes have arrived or a fetch fails; `have` counts the bytes
      already delivered. */
  function Fill(s: Sys, room: nat, deadline: int, now: int, gaps: seq<Gap>): (r: Out)
    requires Inv(s)
    ensures Sound(s, room, deadline, now, gaps, r)
    ensures FailsInOrder(deadline, r.now, r.run.sys, r.err)
    ensures r.err.None? ==> |r.got| == room
    ensures QuietGaps(gaps) ==> FilledQuietly(s, room, deadline, now, r)
    ensures SoloSound(gaps, r)
    decreases room, |gaps|
  {
    if room == 0 then
      Stay(s, 0, deadline, now, gaps, None)
    else
      var x := ReadNext(s, room, deadline, now, gaps);
      QuietStep(s, room, deadline, now, gaps);
      if x.err.Some? then x
      else
        var rest := Fill(x.run.sys, room - |x.got|, deadline, x.now, x.gaps);
        SoundSeq(s, x, rest, room, deadline, now, gaps);
        SoloSeq(x, rest, gaps);
        assert QuietGaps(gaps) ==> FilledQuietly(s, room, deadline, now, Join(x, rest)) by {
          if QuietGaps(gaps) {
            QuietJoin(s, room, deadline, now, gaps, x, rest);
          }
        }
        Join(x, rest)
  }

  /** What the fill loop does when no other thread acts: it takes the head
      of the buffer, as much as fits, and fails only if that was not
      enough, with the error of a fetch on the then empty buffer. */
  predicate FilledQuietly(s: Sys, room: nat, deadline: int, now: int, r: Out) {
    var k := Min(room, |s.nb.buf|);
    && r.got == s.nb.buf[..k]
    && r.run.sys == s.(nb := s.nb.(buf := s.nb.buf[k..]))
    && r.err == (if k == room then None else Some(QuietFailure(s, deadline, now)))
    && (if k < room && s.nb.errfield.None? && now <= deadline then deadline < r.now else r.now == now)
  }

  /** One quiet fetch of the fill loop. */
  lemma QuietStep(s: Sys, room: nat, deadline: int, now: int, gaps: seq<Gap>)
    requires Inv(s) && room > 0
    ensures var x := ReadNext(s, room, deadline, now, gaps);
      QuietGaps(gaps) ==>
        && QuietGaps(x.gaps)
        && (x.err.Some? ==> FilledQuietly(s, room, deadline, now, x))
        && (x.err.None? ==>
              && x.now == now && x.got != []
              && x.got == s.nb.buf[..Min(room, |s.nb.buf|)]
              && x.run.sys == s.(nb := s.nb.(buf := s.nb.buf[Min(room, |s.nb.buf|)..])))
  {
    if QuietGaps(gaps) {
      var x := ReadNext(s, room, deadline, now, gaps);
      QuietSuffix(x.gaps, gaps);
      if |s.nb.buf| == 0 {
        ReadNextQuietEmpty(s, room, deadline, now, gaps);
      } else {
        QuietRest(gaps);
        ReadNextTakesHead(s, room, deadline, now, gaps);
      }
    }
  }

  /** A quiet fetch followed by a quiet fill loop is a quiet fill loop. */
  lemma QuietJoin(s: Sys, room: nat, deadline: int, now: int, gaps: seq<Gap>, x: Out, y: Out)
    requires x.err.None? && x.now == now && x.got != []
    requires x.got == s.nb.buf[..Min(room, |s.nb.buf|)]
    requires x.run.sys == s.(nb := s.nb.(buf := s.nb.buf[Min(room, |s.nb.buf|)..]))
    requires FilledQuietly(x.run.sys, room - |x.got|, deadline, x.now, y)
    ensures FilledQuietly(s, room, deadline, now, Join(x, y))
  {
    var k := Min(room, |s.nb.buf|);
    assert y.got == [];
    assert s.nb.buf[k..][0..] == s.nb.buf[k..];
  }


  /** Two fetches in a row, as one. */
  function Join(x: Out, y: Out): (o: Out)
    ensures |o.got| == |x.got| + |y.got| && o.err == y.err
    ensures o.got[..|x.got|] == x.got
  {
    Out(Chain(x.run, y.run), x.got + y.got, y.err, y.now, y.gaps, None)
  }

  /** Two fetches in a row are sound together. */
  lemma SoundSeq(s: Sys, x: Out, y: Out, room: nat, deadline: int, now: int, gaps: seq<Gap>)
    requires Sound(s, room, deadline, now, gaps, x) && x.err.None?
    requires Sound(x.run.sys, room - |x.got|, deadline, x.now, x.gaps, y)
    ensures Sound(s, room, deadline, now, gaps, Join(x, y))
    ensures Join(x, y).run.sys == y.run.sys
  {
    FollowsCompose(s, x.run, y.run);
    BytesWithAppend(x.run.log.removed, y.run.log.removed, Caller);
    SuffixTransitive(y.gaps, x.gaps, gaps);
    LatenessSuffix(x.gaps, gaps);
  }

  lemma SoloSeq(x: Out, y: Out, gaps: seq<Gap>)
    requires IsSuffix(x.gaps, gaps) && SoloSound(gaps, x) && SoloSound(x.gaps, y)
    ensures SoloSound(gaps, Join(x, y))
  {
    if SoloGaps(gaps) {
      SoloSuffix(x.gaps, gaps);
      FlattenAppend(x.run.log.removed, y.run.log.removed);
    }
  }

  /** The error slot as a read error. */
  function Surfaced(e: Option<Terminal>): Option<ReadError> {
    if e.Some? then Some(Ended(e.value)) else None
  }

  /** Go: `ReadDeadline`. Bytes delivered are returned without error, even
      when the fetch that ended the loop failed: that error is left for the
      next call. With nothing delivered, the failing fetch's error is
      returned, or else the terminal error if one is set. */
  function ReadDeadline(s: Sys, room: nat, deadline: int, now: int, gaps: seq<Gap>): (r: Out)
    requires Inv(s)
    ensures Sound(s, room, deadline, now, gaps, r)
    ensures |r.got| < room ==> r.fetchErr.Some?
    ensures r.got != [] ==> r.err.None?
    ensures room > 0 && r.got == [] ==> r.err == r.fetchErr && r.err.Some?
    ensures room == 0 ==> r.got == [] && r.err == Surfaced(s.nb.errfield) && r.run.sys == s && r.now == now
    ensures FailsInOrder(deadline, r.now, r.run.sys, r.fetchErr)
    ensures r.err == Some(DeadlineExceeded) ==> r.now > deadline
    ensures SoloSound(gaps, r)
  {
    var f := Fill(s, room, deadline, now, gaps);
    if |f.got| != 0 then f.(err := None, fetchErr := f.err)
    else if f.run.sys.nb.errfield.Some? && f.err.None? then
      f.(err := Surfaced(f.run.sys.nb.errfield), fetchErr := f.err)
    else f.(fetchErr := f.err)
  }

  /** With no other thread acting, ReadDeadline returns the head of the
      buffer, as much as fits; with nothing buffered it waits out the
      deadline, or returns the slot's error at once. A fetch that failed
      after bytes were delivered has its error held back. */
  lemma ReadDeadlineQuiet(s: Sys, room: nat, deadline: int, now: int, gaps: seq<Gap>)
    requires Inv(s) && QuietGaps(gaps)
    ensures var r := ReadDeadline(s, room, deadline, now, gaps);
      var k := Min(room, |s.nb.buf|);
      && r.got == s.nb.buf[..k]
      && r.run.sys == s.(nb := s.nb.(buf := s.nb.buf[k..]))
      && r.fetchErr == (if k == room then None else Some(QuietFailure(s, deadline, now)))
      && r.err == (if room == 0 then Surfaced(s.nb.errfield) else if k > 0 then None else Some(QuietFailure(s, deadline, now)))
      && (if k < room && s.nb.errfield.None? && now <= deadline then deadline < r.now else r.now == now)
      && QuietGaps(r.gaps)
  {
    var r := ReadDeadline(s, room, deadline, now, gaps);
    QuietSuffix(r.gaps, gaps);
  }

  /** The deferred error: the call that drains the buffer returns its bytes
      without error, although its last fetch met the end of the stream; the
      next call returns that error. */
  lemma DeferredError(s: Sys, room: nat, deadline: int, now: int, gaps: seq<Gap>)
    requires Inv(s) && QuietGaps(gaps)
    requires 0 < |s.nb.buf| < room && s.nb.errfield.Some? && now <= deadline
    ensures var r1 := ReadDeadline(s, room, deadline, now, gaps);
      && r1.got == s.nb.buf && r1.err == None
      && r1.fetchErr == Some(Ended(s.nb.errfield.value))
      && var r2 := ReadDeadline(r1.run.sys, room, deadline, r1.now, r1.gaps);
        r2.got == [] && r2.err == Some(Ended(s.nb.errfield.value))
  {
    var r1 := ReadDeadline(s, room, deadline, now, gaps);
    ReadDeadlineQuiet(s, room, deadline, now, gaps);
    ReadDeadlineQuiet(r1.run.sys, room, deadline, r1.now, r1.gaps);
  }

  /** Once the slot is set and the buffer drained, ReadDeadline fails at
      once: no sleep, no action of another thread, no bytes. */
  lemma DrainedFailsAtOnce(s: Sys, room: nat, deadline: int, now: int, gaps: seq<Gap>)
    requires Inv(s) && room > 0 && s.nb.buf == [] && s.nb.errfield.Some?
    ensures var r := ReadDeadline(s, room, deadline, now, gaps);
      && r.got == [] && r.now == now && r.err.Some?
      && (r.err == Some(DeadlineExceeded) <==> now > deadline)
      && (Next(gaps).acts == [] ==>
            r.run.sys == s && r.err == Some(if now > deadline then DeadlineExceeded else Ended(s.nb.errfield.value)))
  {
    var x := ReadNext(s, room, deadline, now, gaps);
    DrainedFetch(s, room, deadline, now, gaps);
    assert Fill(s, room, deadline, now, gaps) == x;
  }

  /** The single fetch behind DrainedFailsAtOnce. */
  lemma DrainedFetch(s: Sys, room: nat, deadline: int, now: int, gaps: seq<Gap>)
    requires Inv(s) && room > 0 && s.nb.buf == [] && s.nb.errfield.Some?
    ensures var r := ReadNext(s, room, deadline, now, gaps);
      && r.got == [] && r.now == now && r.err.Some?
      && (r.err == Some(DeadlineExceeded) <==> now > deadline)
      && (Next(gaps).acts == [] ==>
            r.run.sys == s && r.err == Some(if now > deadline then DeadlineExceeded else Ended(s.nb.errfield.value)))
  {
    if now <= deadline {
      var w := Window(s, gaps);
      ReadNextEnded(s, room, deadline, now, gaps);
      assert Next(gaps).acts == [] ==> w.sys == s;
    }
  }

  /** Go: `Read` with a zero default timeout: take whatever is buffered and
      return it with the slot's error, without waiting, possibly with both
      bytes and an error. */
  function ReadNow(s: Sys, room: nat, now: int, gaps: seq<Gap>): (r: Out)
    requires Inv(s)
    ensures Follows(s, r.run) && Mine(r.run) == r.got
    ensures r.now == now && r.gaps == gaps
    ensures r.got == s.nb.buf[..Min(room, |s.nb.buf|)]
    ensures r.run.sys == s.(nb := s.nb.(buf := s.nb.buf[Min(room, |s.nb.buf|)..]))
    ensures r.err == Surfaced(s.nb.errfield)
    ensures Flatten(r.run.log.removed) == r.got
  {
    var f := FastRead(s.nb, room);
    TakeFollows(s, room, Caller);
    assert f.got == s.nb.buf[..Min(room, |s.nb.buf|)];
    Out(Applied(s.(nb := f.nb), f.log, []), f.got, Surfaced(f.err), now, gaps, None)
  }

  /** The pump appends the last bytes of the stream and sets the slot to EOF
      under two separate locks. A zero-timeout read in between returns those
      bytes with no error; the next one returns EOF and nothing else. */
  lemma LastBytesBeforeEnd(s: Sys, room: nat, now: int, gaps: seq<Gap>, data: seq<byte>)
    requires Inv(s) && s.nb.buf == [] && s.nb.errfield.None? && s.pump.phase == Reading
    requires 0 < |data| <= s.nb.readSize && |data| <= room
    requires s.stream != [] && s.stream[0] == Returned(data, EndOfStream)
    ensures var a := PumpMove(s);
      var r1 := ReadNow(a.sys, room, now, gaps);
      var f := PumpMove(r1.run.sys);
      var r2 := ReadNow(f.sys, room, now, gaps);
      && r1.got == data && r1.err == None
      && r2.got == [] && r2.err == Some(Ended(EOF))
  {
  }

  /** Go: `Read`: the fast path when the default timeout is zero, otherwise
      ReadDeadline with the deadline now plus the timeout. */
  function Read(s: Sys, room: nat, now: int, gaps: seq<Gap>): (r: Out)
    requires Inv(s)
    ensures Follows(s, r.run) && Mine(r.run) == r.got && |r.got| <= room
    ensures s.nb.timeout == 0 ==>
      && r.now == now && r.got == s.nb.buf[..Min(room, |s.nb.buf|)]
      && r.err == Surfaced(s.nb.errfield)
    ensures s.nb.timeout > 0 ==>
      && (r.err.Some? ==> r.got == [])
      && now <= r.now <= now + s.nb.timeout + Lateness(gaps)
    ensures SoloGaps(gaps) ==> Flatten(r.run.log.removed) == r.got
  {
    if s.nb.timeout == 0 then ReadNow(s, room, now, gaps)
    else ReadDeadline(s, room, now + s.nb.timeout, now, gaps)
  }
}

=== FILE: mode.dfy ===
/** The serial-line enumerations of mode.go: stop bits and parity, both
    byte-valued Go enums with total, pure renderings.

    The numeric values of the named constants come from the serial driver
    package (`go.bug.st/serial`), which is not part of this model; they are
    taken to be consecutive from zero in declaration order: one, one and a
    half, two stop bits = 0, 1, 2 and none, odd, even, mark, space parity =
    0..4. */
module Mode {
  import opened Basics

  /** Go: `type StopBits byte`. */
  newtype StopBits = x: int | 0 <= x < 256

  const StopBits1: StopBits := 0
  const StopBits1Half: StopBits := 1
  const StopBits2: StopBits := 2

  predicate IsStopBits(s: StopBits) {
    s == StopBits1 || s == StopBits1Half || s == StopBits2
  }

  /** Go: `type Parity byte`. */
  newtype Parity = x: int | 0 <= x < 256

  const ParityNone: Parity := 0
  const ParityOdd: Parity := 1
  const ParityEven: Parity := 2
  const ParityMark: Parity := 3
  const ParitySpace: Parity := 4

  predicate IsParity(p: Parity) {
    p == ParityNone || p == ParityOdd || p == ParityEven || p == ParityMark || p == ParitySpace
  }

  /** The number of half bit-times a stop-bit setting lasts; 0 for a value
      that is not one of the three named settings. */
  function Halves(s: StopBits): (halves: int)
    ensures halves != 0 <==> IsStopBits(s)
    ensures IsStopBits(s) ==> 2 <= halves <= 4 && halves == 2 + s as int
  {
    if s == StopBits1 then 2
    else if s == StopBits1Half then 3
    else if s == StopBits2 then 4
    else 0
  }

  /** Decimal rendering of a single digit. */
  function Digit(d: int): (c: char)
    requires 0 <= d < 10
  {
    "0123456789"[d]
  }

  /** An independent reading of a stop-bit count given in half bits:
      the whole number of bits, followed by ".5" when there is a half. */
  function HalfBitsText(halves: int): string
    requires 0 <= halves < 20
  {
    [Digit(halves / 2)] + (if halves % 2 == 1 then ".5" else "")
  }

  function StopBitsString(s: StopBits): (str: string)
    ensures str != "Unknown" <==> Halves(s) != 0
    ensures Halves(s) != 0 ==> str == HalfBitsText(Halves(s))
  {
    if s == StopBits1 then "1"
    else if s == StopBits1Half then "1.5"
    else if s == StopBits2 then "2"
    else "Unknown"
  }

  /** Distinct named settings render as distinct strings, so the rendering
      can be read back. */
  lemma StopBitsStringInjective(s: StopBits, t: StopBits)
    requires IsStopBits(s) && IsStopBits(t)
    requires StopBitsString(s) == StopBitsString(t)
    ensures s == t
  {
  }

  function ParityString(p: Parity): (s: string)
    ensures s == "Unknown" <==> !IsParity(p)
    ensures |s| >= 3
  {
    if p == ParityNone then "None"
    else if p == ParityOdd then "Odd"
    else if p == ParityEven then "Even"
    else if p == ParityMark then "Mark"
    else if p == ParitySpace then "Space"
    else "Unknown"
  }

  lemma ParityStringInjective(p: Parity, q: Parity)
    requires IsParity(p) && IsParity(q)
    requires ParityString(p) == ParityString(q)
    ensures p == q
  {
  }

  /** Go byte of an ASCII character. */
  function Ascii(c: char): byte
    requires c as int < 256
  {
    c as int
  }

  /** The one-letter code of a parity ('N', 'O', 'E', 'M', 'S'), '?' for any
      value above ParitySpace. The table lookup stays in range because the
      five named values are 0..4. */
  function ParityChar(p: Parity): (c: byte)
    ensures IsParity(p) ==> c == Ascii(ParityString(p)[0])
    ensures !IsParity(p) ==> c == Ascii('?')
  {
    if p > ParitySpace then Ascii('?')
    else Ascii("NOEMS"[p as int])
  }
}

=== FILE: pump.dfy ===
/** The pump goroutine started by NewNonBlocking (nonblocking.go:73-104).

    One loop iteration has parts that other threads can separate, since
    each takes the mutex on its own: the test of the error slot at the top of
    the loop (`nb.err()`), the backpressure test (`nb.Buffered()`), what
    happens once the blocking read on the underlying stream has returned
    (append, backoff), and on end of stream the setting of the slot, which
    takes the mutex again after the append. `Check`, `Gauge`, `Complete` and
    `Finish` are those parts; `Iteration` runs them back to back.

    The deferred `recover` turns every panic inside the goroutine into the
    PumpFailed terminal error and ends the goroutine: a panic of the
    underlying read, the out-of-range slice `buf[:n]` when the read claims
    more bytes than it was given room for, and the MaxWait panics of the
    backoff. */
module Pump {
  import opened Basics
  import opened ExpBackoff
  import opened Shared

  /** The error an underlying read returned: nil, io.EOF (or an error
      wrapping it), or anything else. */
  datatype Status = NoError | EndOfStream | OtherError

  /** One return of the underlying `Read`: the `n` bytes it produced and its
      error, or a panic. */
  datatype ReadResult = Returned(data: seq<byte>, status: Status) | Panicked

  /** Where the goroutine is: about to test the error slot, about to test
      the buffer against the threshold, blocked in the underlying read, about
      to set the slot to EOF after appending the last bytes, or returned. */
  datatype Phase = Checking | Gauging | Reading | Ending | Exited

  datatype Pump = Pump(backoff: Backoff, phase: Phase)

  datatype PumpOut = PumpOut(nb: NonBlocking, pump: Pump, log: Log)

  /** The goroutine as NewNonBlocking starts it. */
  const Started: Pump := Pump(PumpInitial, Checking)

  /** What stays true of the pump between any two atomic actions: its backoff
      keeps its configuration and range, it is only blocked in a read it
      decided to issue below the threshold, and it only ever returns with the
      error slot set. */
  predicate PumpInv(nb: NonBlocking, p: Pump) {
    && PumpBackoff(p.backoff)
    && (p.phase == Reading ==> |nb.buf| < nb.maxBuffered)
    && (p.phase == Exited ==> nb.errfield.Some?)
  }

  /** The bytes a read result contributes to the buffer: all `n` of them, or
      none when the result panics the goroutine. */
  function Payload(r: ReadResult, readSize: int): (d: seq<byte>)
    ensures r.Panicked? || |r.data| > readSize ==> d == []
    ensures r.Returned? && |r.data| <= readSize ==> d == r.data
  {
    match r
    case Panicked => []
    case Returned(data, _) => if |data| > readSize then [] else data
  }

  /** Recovered panic: the slot becomes PumpFailed and the goroutine ends. */
  function Crash(nb: NonBlocking, p: Pump, log: Log): (r: PumpOut)
    ensures r.nb.errfield == Some(PumpFailed) && r.pump.phase == Exited
    ensures r.nb.buf == nb.buf && r.log == log
  {
    PumpOut(SetErr(nb, PumpFailed), p.(phase := Exited), log)
  }

  /** `backoff.Miss()` followed by `continue`. */
  function AfterMiss(nb: NonBlocking, p: Pump, log: Log): (r: PumpOut)
    ensures r.nb.buf == nb.buf && r.log == log
    ensures r.pump.phase == Checking || r.nb.errfield == Some(PumpFailed)
    ensures Miss(p.backoff).Success? ==> r == PumpOut(nb, Pump(Miss(p.backoff).value.next, Checking), log)
    ensures Miss(p.backoff).Failure? ==> r.nb == SetErr(nb, PumpFailed) && r.pump.phase == Exited
  {
    match Miss(p.backoff)
    case Failure(_) => Crash(nb, p, log)
    case Success(m) => PumpOut(nb, Pump(m.next, Checking), log)
  }

  /** The loop condition: return once the slot is set, otherwise go on to
      the backpressure test. */
  function Check(nb: NonBlocking, p: Pump): (r: PumpOut)
    requires p.phase == Checking
    requires Configured(nb) && PumpInv(nb, p)
    ensures PumpInv(r.nb, r.pump)
    ensures r.log == Quiet && r.nb == nb && r.pump.backoff == p.backoff
    ensures r.pump.phase == Exited <==> nb.errfield.Some?
    ensures r.pump.phase == Gauging <==> nb.errfield.None?
  {
    if nb.errfield.Some? then PumpOut(nb, p.(phase := Exited), Quiet)
    else PumpOut(nb, p.(phase := Gauging), Quiet)
  }

  /** Backpressure: sleep and grow the backoff while the buffer holds at
      least `maxBuffered` bytes; otherwise issue the read. The slot is not
      looked at again, so a Close since the loop condition does not stop
      this read. */
  function Gauge(nb: NonBlocking, p: Pump): (r: PumpOut)
    requires p.phase == Gauging
    requires Configured(nb) && PumpInv(nb, p)
    ensures PumpInv(r.nb, r.pump)
    ensures r.log == Quiet && r.nb == nb
    ensures r.pump.phase == Reading <==> |nb.buf| < nb.maxBuffered
    ensures r.pump.phase != Reading ==> r.pump.phase == Checking
    ensures r.pump.phase == Checking ==> r.pump.backoff == Miss(p.backoff).value.next
    ensures r.pump.phase == Reading ==> r.pump.backoff == p.backoff
  {
    PumpBackoffStable(p.backoff);
    if nb.maxBuffered != 0 && |nb.buf| >= nb.maxBuffered then AfterMiss(nb, p, Quiet)
    else PumpOut(nb, p.(phase := Reading), Quiet)
  }

  /** After the underlying read returned `r`: append the bytes even when the
      read also reported end of stream; on end of stream go on to set the
      slot (`Finish`); otherwise back off on an empty read and reset the backoff on a
      non-empty one. Errors other than end of stream are ignored. */
  function Complete(nb: NonBlocking, p: Pump, r: ReadResult): (o: PumpOut)
    requires p.phase == Reading
    requires Configured(nb) && PumpInv(nb, p)
    ensures PumpInv(o.nb, o.pump)
    ensures o.nb.buf == nb.buf + Payload(r, nb.readSize)
    ensures o.log == Log(Payload(r, nb.readSize), [])
    ensures Accounts(nb.buf, o.log, o.nb.buf)
    ensures |o.nb.buf| <= nb.maxBuffered + nb.readSize - 1
    ensures nb.errfield.None? ==> (o.pump.phase == Exited <==> o.nb.errfield.Some?)
    ensures o.nb.errfield.Some? ==> nb.errfield.Some? || r.Panicked? || |r.data| > nb.readSize
    ensures o.pump.phase == Ending <==> r.Returned? && |r.data| <= nb.readSize && r.status == EndOfStream
    ensures o.nb.(buf := nb.buf, errfield := nb.errfield) == nb
  {
    PumpBackoffStable(p.backoff);
    match r
    case Panicked => Crash(nb, p, Quiet)
    case Returned(data, status) =>
      if |data| > nb.readSize then Crash(nb, p, Quiet)
      else
        var nb1 := BufWrite(nb, data);
        var log := Log(data, []);
        if status == EndOfStream then PumpOut(nb1, p.(phase := Ending), log)
        else if |data| == 0 then AfterMiss(nb1, p, log)
        else match Hit(p.backoff)
          case Failure(_) => Crash(nb1, p, log)
          case Success(b) => PumpOut(nb1, Pump(b, Checking), log)
  }

  /** After the last bytes were appended: set the slot to EOF, whatever it
      holds by now, and return. */
  function Finish(nb: NonBlocking, p: Pump): (r: PumpOut)
    requires p.phase == Ending
    requires Configured(nb) && PumpInv(nb, p)
    ensures PumpInv(r.nb, r.pump)
    ensures r.nb.errfield == Some(EOF) && r.pump.phase == Exited
    ensures r.nb.(errfield := nb.errfield) == nb && r.log == Quiet
  {
    PumpOut(SetErr(nb, EOF), p.(phase := Exited), Quiet)
  }

  /** One iteration with no other thread acting in between. */
  function Iteration(nb: NonBlocking, p: Pump, r: ReadResult): (o: PumpOut)
    requires p.phase == Checking
    requires Configured(nb) && PumpInv(nb, p)
    ensures PumpInv(o.nb, o.pump)
    ensures Accounts(nb.buf, o.log, o.nb.buf) && o.log.removed == []
  {
    var c := Check(nb, p);
    if c.pump.phase == Exited then c
    else
      var g := Gauge(c.nb, c.pump);
      if g.pump.phase != Reading then g
      else
        var o := Complete(g.nb, g.pump, r);
        if o.pump.phase == Ending then
          var f := Finish(o.nb, o.pump);
          PumpOut(f.nb, f.pump, o.log)
        else o
  }

  /** Backpressure: at or above the threshold the iteration does not read;
      it only sleeps and grows the backoff. */
  lemma IterationThrottles(nb: NonBlocking, p: Pump, r: ReadResult)
    requires p.phase == Checking && Configured(nb) && PumpInv(nb, p)
    requires nb.errfield.None? && |nb.buf| >= nb.maxBuffered
    ensures Iteration(nb, p, r) == PumpOut(nb, Pump(Miss(p.backoff).value.next, Checking), Quiet)
  {
    PumpBackoffStable(p.backoff);
  }

  /** Below the threshold the iteration appends exactly the bytes the read
      returned, at the tail, whether or not the read also reported end of
      stream. */
  lemma IterationAppends(nb: NonBlocking, p: Pump, data: seq<byte>, status: Status)
    requires p.phase == Checking && Configured(nb) && PumpInv(nb, p)
    requires nb.errfield.None? && |nb.buf| < nb.maxBuffered && |data| <= nb.readSize
    ensures Iteration(nb, p, Returned(data, status)).nb.buf == nb.buf + data
  {
  }

  /** End of stream sets the slot to EOF and ends the goroutine. */
  lemma IterationStopsAtEndOfStream(nb: NonBlocking, p: Pump, data: seq<byte>)
    requires p.phase == Checking && Configured(nb) && PumpInv(nb, p)
    requires nb.errfield.None? && |nb.buf| < nb.maxBuffered && |data| <= nb.readSize
    ensures Iteration(nb, p, Returned(data, EndOfStream)).nb.errfield == Some(EOF)
    ensures Iteration(nb, p, Returned(data, EndOfStream)).pump.phase == Exited
  {
  }

  /** An empty read misses, a non-empty one hits; the loop goes on. */
  lemma IterationBacksOff(nb: NonBlocking, p: Pump, data: seq<byte>, status: Status)
    requires p.phase == Checking && Configured(nb) && PumpInv(nb, p)
    requires nb.errfield.None? && |nb.buf| < nb.maxBuffered && |data| <= nb.readSize
    requires status != EndOfStream
    ensures var o := Iteration(nb, p, Returned(data, status));
      && o.pump.phase == Checking && o.nb.errfield.None?
      && o.pump.backoff == (if data == [] then Miss(p.backoff).value.next else Hit(p.backoff).value)
  {
    PumpBackoffStable(p.backoff);
  }

  /** Read errors other than end of stream make no difference. */
  lemma IterationIgnoresOtherErrors(nb: NonBlocking, p: Pump, data: seq<byte>)
    requires p.phase == Checking && Configured(nb) && PumpInv(nb, p)
    ensures Iteration(nb, p, Returned(data, OtherError)) == Iteration(nb, p, Returned(data, NoError))
  {
  }

  /** A read claiming more bytes than it was given room for panics on the
      slice; the recovered panic ends the goroutine with nothing appended. */
  lemma IterationOversizedReadFails(nb: NonBlocking, p: Pump, data: seq<byte>, status: Status)
    requires p.phase == Checking && Configured(nb) && PumpInv(nb, p)
    requires nb.errfield.None? && |nb.buf| < nb.maxBuffered && |data| > nb.readSize
    ensures Iteration(nb, p, Returned(data, status)).nb == SetErr(nb, PumpFailed)
    ensures Iteration(nb, p, Returned(data, status)).pump.phase == Exited
  {
  }

  /** Once the slot is set, the next check ends the goroutine and changes
      nothing else. */
  lemma IterationStopsOnError(nb: NonBlocking, p: Pump, r: ReadResult)
    requires p.phase == Checking && Configured(nb) && PumpInv(nb, p)
    requires nb.errfield.Some?
    ensures Iteration(nb, p, r) == PumpOut(nb, p.(phase := Exited), Quiet)
  {
  }
}

=== FILE: shared.dfy ===
/** The adapter record of nonblocking.go (`NonBlocking`) and the operations
    that run with its mutex held: append, take, reset, the error slot, and
    the non-blocking Read fast path. Every operation here is one atomic
    transition; the threads that call them are modelled in Pump, System and
    Deadline.

    Each buffer operation also returns a Log of what it added at the tail and
    removed from the head. `Accounts` is the FIFO law relating a log to the
    buffer before and after, and it composes (`AccountsCompose`), which is how
    the integrity of whole runs is proved. */
module Shared {
  import opened Basics

  /** Values the terminal error slot can hold: io.EOF (from the underlying
      stream or from Close) or the error made from a recovered panic of the
      pump goroutine. */
  datatype Terminal = EOF | PumpFailed

  /** Go: `NonBlockingConfig`. */
  datatype Config = Config(readTimeout: int64, maxReadSize: int, maxReadBuffered: int)

  /** Go: `NonBlocking`. `readSize` is the pump's read size (`vmin`), which
      the Go code captures in the goroutine rather than storing in the
      struct. */
  datatype NonBlocking = NonBlocking(
    timeout: int64,
    maxBuffered: int,
    readSize: int,
    buf: seq<byte>,
    errfield: Option<Terminal>
  )

  /** The panics of NewNonBlocking. */
  datatype ConstructError = NilStream | InvalidArgument

  const DefaultMaxBuffered: int := 32 * 1024
  const DefaultReadSize: int := 1024

  /** The configuration every constructed adapter satisfies. */
  predicate Configured(nb: NonBlocking) {
    nb.timeout >= 0 && nb.maxBuffered > 0 && nb.readSize > 0
  }

  /** Validates the configuration and replaces zero sizes with defaults.
      The stream itself is outside the model: only whether it is nil. */
  function NewNonBlocking(streamIsNil: bool, cfg: Config): (r: Result<NonBlocking, ConstructError>)
    ensures r == Failure(NilStream) <==> streamIsNil
    ensures r == Failure(InvalidArgument) <==>
      !streamIsNil && (cfg.readTimeout < 0 || cfg.maxReadBuffered < 0 || cfg.maxReadSize < 0)
    ensures r.Success? ==> Configured(r.value) && r.value.buf == [] && r.value.errfield == None
    ensures r.Success? ==> r.value.timeout == cfg.readTimeout
    ensures r.Success? ==> r.value.maxBuffered == (if cfg.maxReadBuffered == 0 then DefaultMaxBuffered else cfg.maxReadBuffered)
    ensures r.Success? ==> r.value.readSize == (if cfg.maxReadSize == 0 then DefaultReadSize else cfg.maxReadSize)
  {
    if streamIsNil then Failure(NilStream)
    else if cfg.readTimeout < 0 || cfg.maxReadBuffered < 0 || cfg.maxReadSize < 0 then Failure(InvalidArgument)
    else
      var maxBuffered := if cfg.maxReadBuffered == 0 then DefaultMaxBuffered else cfg.maxReadBuffered;
      var readSize := if cfg.maxReadSize == 0 then DefaultReadSize else cfg.maxReadSize;
      Success(NonBlocking(cfg.readTimeout, maxBuffered, readSize, [], None))
  }

  /** What became of bytes that left the buffer: read by the caller under
      study, read by some other caller, or thrown away by Reset. */
  datatype Fate = Caller | Other | Discarded

  datatype Chunk = Chunk(bytes: seq<byte>, fate: Fate)

  /** Bytes appended at the tail, and chunks removed from the head in order. */
  datatype Log = Log(added: seq<byte>, removed: seq<Chunk>)

  const Quiet: Log := Log([], [])

  /** The log of `a` followed by `b`. */
  function Then(a: Log, b: Log): Log {
    Log(a.added + b.added, a.removed + b.removed)
  }

  function Flatten(cs: seq<Chunk>): seq<byte> {
    if cs == [] then [] else cs[0].bytes + Flatten(cs[1..])
  }

  /** The bytes of the chunks with the given fate, in order. */
  function BytesWith(cs: seq<Chunk>, f: Fate): seq<byte> {
    if cs == [] then [] else (if cs[0].fate == f then cs[0].bytes else []) + BytesWith(cs[1..], f)
  }

  lemma {:induction false} FlattenAppend(a: seq<Chunk>, b: seq<Chunk>)
    ensures Flatten(a + b) == Flatten(a) + Flatten(b)
  {
    if a == [] {
      assert a + b == b;
    } else {
      assert (a + b)[1..] == a[1..] + b;
      FlattenAppend(a[1..], b);
    }
  }

  lemma {:induction false} BytesWithAppend(a: seq<Chunk>, b: seq<Chunk>, f: Fate)
    ensures BytesWith(a + b, f) == BytesWith(a, f) + BytesWith(b, f)
  {
    if a == [] {
      assert a + b == b;
    } else {
      assert (a + b)[1..] == a[1..] + b;
      BytesWithAppend(a[1..], b, f);
    }
  }

  /** FIFO law: what left the head, followed by what is left, is what was
      there followed by what was appended. */
  predicate Accounts(before: seq<byte>, log: Log, after: seq<byte>) {
    Flatten(log.removed) + after == before + log.added
  }

  lemma AccountsCompose(b0: seq<byte>, l1: Log, b1: seq<byte>, l2: Log, b2: seq<byte>)
    requires Accounts(b0, l1, b1) && Accounts(b1, l2, b2)
    ensures Accounts(b0, Then(l1, l2), b2)
  {
    FlattenAppend(l1.removed, l2.removed);
    var f1, f2 := Flatten(l1.removed), Flatten(l2.removed);
    calc {
      (f1 + f2) + b2;
      f1 + (f2 + b2);
      f1 + (b1 + l2.added);
      (f1 + b1) + l2.added;
      (b0 + l1.added) + l2.added;
      b0 + (l1.added + l2.added);
    }
  }

  /** Go: `Buffered`: the number of bytes waiting, read with the mutex held.
      It is the least room with which a take empties the buffer. */
  function Buffered(nb: NonBlocking): (n: nat)
    ensures Take(nb, n, Caller).got == nb.buf && Take(nb, n, Caller).nb.buf == []
    ensures n > 0 ==> Take(nb, n - 1, Caller).nb.buf != []
  {
    |nb.buf|
  }

  /** What Buffered reports after a run of buffer operations: what it
      reported before, plus what was appended, minus what was removed. */
  lemma BufferedAfter(before: NonBlocking, log: Log, after: NonBlocking)
    requires Accounts(before.buf, log, after.buf)
    ensures Buffered(after) == Buffered(before) + |log.added| - |Flatten(log.removed)|
  {
    assert |Flatten(log.removed) + after.buf| == |before.buf + log.added|;
  }

  /** Go: `bufwrite`. */
  function BufWrite(nb: NonBlocking, data: seq<byte>): (r: NonBlocking)
    ensures |r.buf| == |nb.buf| + |data|
    ensures r.buf[..|nb.buf|] == nb.buf && r.buf[|nb.buf|..] == data
    ensures r.(buf := nb.buf) == nb
    ensures Accounts(nb.buf, Log(data, []), r.buf)
  {
    nb.(buf := nb.buf + data)
  }

  /** Result of a take: the adapter after it, the bytes taken and the log. */
  datatype Taken = Taken(nb: NonBlocking, got: seq<byte>, log: Log)

  /** Go: `nb.buf.Read(b)` with `len(b) == room`, mutex held: moves up to
      `room` bytes from the head of the buffer. The error bytes.Buffer reports
      on an empty buffer is ignored by every caller. */
  function Take(nb: NonBlocking, room: nat, fate: Fate): (r: Taken)
    ensures |r.got| == Min(room, |nb.buf|)
    ensures r.got + r.nb.buf == nb.buf
    ensures r.nb.(buf := nb.buf) == nb
    ensures Accounts(nb.buf, r.log, r.nb.buf) && r.log.added == []
    ensures BytesWith(r.log.removed, fate) == r.got && Flatten(r.log.removed) == r.got
    ensures forall g :: g != fate ==> BytesWith(r.log.removed, g) == []
  {
    var n := Min(room, |nb.buf|);
    var log := Log([], [Chunk(nb.buf[..n], fate)]);
    assert Flatten(log.removed) == nb.buf[..n] by {
      assert log.removed[1..] == [];
    }
    assert BytesWith(log.removed, fate) == nb.buf[..n] by {
      assert log.removed[1..] == [];
    }
    assert nb.buf[..n] + nb.buf[n..] == nb.buf;
    Taken(nb.(buf := nb.buf[n..]), nb.buf[..n], log)
  }

  /** Go: `Reset`: drops the whole buffer; the error slot is untouched. */
  function Reset(nb: NonBlocking): (r: Taken)
    ensures r.nb.buf == [] && r.got == []
    ensures r.nb.errfield == nb.errfield && r.nb.(buf := nb.buf) == nb
    ensures Accounts(nb.buf, r.log, r.nb.buf) && r.log.added == []
    ensures BytesWith(r.log.removed, Discarded) == nb.buf
    ensures BytesWith(r.log.removed, Caller) == [] && BytesWith(r.log.removed, Other) == []
  {
    var log := Log([], [Chunk(nb.buf, Discarded)]);
    assert log.removed[1..] == [];
    assert Flatten(log.removed) == nb.buf;
    Taken(nb.(buf := []), [], log)
  }

  /** Go: `setErr`: overwrites the slot; it is only ever given a non-nil
      error, so a set slot stays set. */
  function SetErr(nb: NonBlocking, t: Terminal): (r: NonBlocking)
    ensures r.errfield.Some? && r.errfield.value == t
    ensures r.(errfield := nb.errfield) == nb
  {
    nb.(errfield := Some(t))
  }

  /** Go: `Close`, as far as the adapter is concerned: the slot becomes EOF
      whatever it held. Closing the underlying stream is outside the model. */
  function Close(nb: NonBlocking): (r: NonBlocking)
    ensures r.errfield == Some(EOF)
    ensures r.buf == nb.buf
  {
    SetErr(nb, EOF)
  }

  /** The caller-visible outcome of a fast-path Read. */
  datatype FastOut = FastOut(nb: NonBlocking, got: seq<byte>, err: Option<Terminal>, log: Log)

  /** Go: `Read` when the default timeout is zero: take what is buffered
      and return it together with whatever the error slot holds, without
      waiting. */
  function FastRead(nb: NonBlocking, room: nat): (r: FastOut)
    ensures |r.got| == Min(room, |nb.buf|)
    ensures r.got + r.nb.buf == nb.buf
    ensures r.err == nb.errfield == r.nb.errfield
    ensures Accounts(nb.buf, r.log, r.nb.buf) && r.log.added == []
    ensures BytesWith(r.log.removed, Caller) == r.got
  {
    var t := Take(nb, room, Caller);
    FastOut(t.nb, t.got, nb.errfield, t.log)
  }

  /** The fast path hands over bytes and a terminal error in the same call:
      the last bytes of a stream come back alongside EOF. */
  lemma FastReadBytesWithError(nb: NonBlocking, room: nat)
    requires nb.errfield == Some(EOF) && |nb.buf| > 0 && room > 0
    ensures |FastRead(nb, room).got| > 0 && FastRead(nb, room).err == Some(EOF)
  {
  }

  /** After Reset, a fast-path read returns none of the stale bytes. */
  lemma ResetThenFastReadIsEmpty(nb: NonBlocking, room: nat)
    ensures FastRead(Reset(nb).nb, room).got == []
    ensures FastRead(Reset(nb).nb, room).err == nb.errfield
  {
  }
}

=== FILE: system.dfy ===
/** The adapter together with its pump goroutine and the underlying stream,
    and the atomic actions threads other than a reading caller perform on it.

    The underlying stream is the sequence of results its `Read` will return,
    in order. Every action holds the mutex for one append, take, reset or
    error update, so a run of the whole system is a sequence of actions. */
module System {
  import opened Basics
  import opened ExpBackoff
  import opened Shared
  import opened Pump

  datatype Sys = Sys(nb: NonBlocking, pump: Pump, stream: seq<ReadResult>)

  /** An atomic action: the pump's next half-iteration, another caller's
      mutex-held take of up to `room` bytes, Reset, or Close. */
  datatype Act = PumpAct | TakeAct(room: nat) | ResetAct | CloseAct

  /** The system after some actions, their buffer log, and the underlying
      read results the pump consumed meanwhile. */
  datatype Applied = Applied(sys: Sys, log: Log, consumed: seq<ReadResult>)

  /** Buffered length never exceeds the threshold by a whole read size: the
      pump only reads below the threshold, and a read adds at most
      `readSize` bytes. */
  predicate Bounded(nb: NonBlocking) {
    |nb.buf| <= nb.maxBuffered + nb.readSize - 1
  }

  predicate Inv(s: Sys) {
    Configured(s.nb) && PumpInv(s.nb, s.pump) && Bounded(s.nb)
  }

  /** The adapter as NewNonBlocking returns it, with its goroutine started. */
  function Start(nb: NonBlocking, stream: seq<ReadResult>): (s: Sys)
    requires Configured(nb) && nb.buf == [] && nb.errfield == None
    ensures Inv(s)
  {
    PumpInitialIsPumpBackoff();
    Sys(nb, Started, stream)
  }

  /** All the bytes a sequence of read results contributes to the buffer. */
  function Payloads(rs: seq<ReadResult>, readSize: int): seq<byte> {
    if rs == [] then [] else Payload(rs[0], readSize) + Payloads(rs[1..], readSize)
  }

  lemma {:induction false} PayloadsAppend(a: seq<ReadResult>, b: seq<ReadResult>, readSize: int)
    ensures Payloads(a + b, readSize) == Payloads(a, readSize) + Payloads(b, readSize)
  {
    if a == [] {
      assert a + b == b;
    } else {
      assert (a + b)[1..] == a[1..] + b;
      PayloadsAppend(a[1..], b, readSize);
    }
  }

  predicate SameConfig(a: NonBlocking, b: NonBlocking) {
    a.timeout == b.timeout && a.maxBuffered == b.maxBuffered && a.readSize == b.readSize
  }

  /** What every action, and every run of actions, guarantees: the invariant
      is kept; the buffer obeys the FIFO law; the pump consumes a prefix of
      the stream and appends exactly those results' payloads; the configuration
      does not change; a set error slot stays set. */
  predicate Follows(s: Sys, r: Applied) {
    && Inv(r.sys)
    && Accounts(s.nb.buf, r.log, r.sys.nb.buf)
    && s.stream == r.consumed + r.sys.stream
    && r.log.added == Payloads(r.consumed, s.nb.readSize)
    && SameConfig(s.nb, r.sys.nb)
    && (s.nb.errfield.Some? ==> r.sys.nb.errfield.Some?)
  }

  function Chain(a: Applied, b: Applied): Applied {
    Applied(b.sys, Then(a.log, b.log), a.consumed + b.consumed)
  }

  lemma FollowsCompose(s: Sys, a: Applied, b: Applied)
    requires Follows(s, a) && Follows(a.sys, b)
    ensures Follows(s, Chain(a, b))
  {
    AccountsCompose(s.nb.buf, a.log, a.sys.nb.buf, b.log, b.sys.nb.buf);
    assert s.stream == (a.consumed + b.consumed) + b.sys.stream;
    calc {
      Then(a.log, b.log).added;
      a.log.added + b.log.added;
      Payloads(a.consumed, s.nb.readSize) + Payloads(b.consumed, s.nb.readSize);
      { PayloadsAppend(a.consumed, b.consumed, s.nb.readSize); }
      Payloads(a.consumed + b.consumed, s.nb.readSize);
    }
  }

  lemma FollowsNothing(s: Sys)
    requires Inv(s)
    ensures Follows(s, Applied(s, Quiet, []))
  {
  }

  /** The pump's next half-iteration. Blocked in a read on a stream with no
      further results, or returned, it does nothing. */
  function PumpMove(s: Sys): (r: Applied)
    requires Inv(s)
    ensures Follows(s, r)
    ensures r.log.removed == []
    ensures r.consumed != [] ==> s.pump.phase == Reading && r.consumed == [s.stream[0]]
    ensures s.pump.phase == Checking ==>
      r == Applied(s.(pump := s.pump.(phase := if s.nb.errfield.Some? then Exited else Gauging)), Quiet, [])
  {
    match s.pump.phase
    case Exited => Applied(s, Quiet, [])
    case Checking =>
      var o := Check(s.nb, s.pump);
      Applied(Sys(o.nb, o.pump, s.stream), o.log, [])
    case Gauging =>
      var o := Gauge(s.nb, s.pump);
      Applied(Sys(o.nb, o.pump, s.stream), o.log, [])
    case Ending =>
      var o := Finish(s.nb, s.pump);
      Applied(Sys(o.nb, o.pump, s.stream), o.log, [])
    case Reading =>
      if s.stream == [] then Applied(s, Quiet, [])
      else
        var o := Complete(s.nb, s.pump, s.stream[0]);
        assert Payloads([s.stream[0]], s.nb.readSize) == Payload(s.stream[0], s.nb.readSize) by {
          assert [s.stream[0]][1..] == [];
        }
        Applied(Sys(o.nb, o.pump, s.stream[1..]), o.log, [s.stream[0]])
  }

  /** Past the loop condition, the pump issues its read exactly when the
      buffer is below its threshold, and otherwise backs off and goes back to
      the loop condition. */
  lemma PumpReadsOnlyBelowThreshold(s: Sys)
    requires Inv(s) && s.pump.phase == Gauging
    ensures PumpMove(s).sys.pump.phase == Reading <==> |s.nb.buf| < s.nb.maxBuffered
    ensures PumpMove(s).sys.pump.phase != Reading ==> PumpMove(s).sys.pump.phase == Checking
  {
  }

  /** The slot and the buffer are tested under separate locks: when a Close
      lands after the loop condition saw an empty slot and another caller
      then drains the buffer below the threshold, the pump still issues one
      more read on the closed stream. */
  lemma {:induction false} PumpReadsAfterClose(s: Sys, room: nat)
    requires Inv(s) && s.pump.phase == Checking && s.nb.errfield.None?
    requires |s.nb.buf| - room < s.nb.maxBuffered
    ensures var g := PumpMove(s);
      var c := ApplyAct(g.sys, CloseAct);
      var t := ApplyAct(c.sys, TakeAct(room));
      && c.sys.nb.errfield == Some(EOF) && t.sys.nb.errfield == Some(EOF)
      && PumpMove(t.sys).sys.pump.phase == Reading
  {
    var g := PumpMove(s);
    var c := ApplyAct(g.sys, CloseAct);
    var t := ApplyAct(c.sys, TakeAct(room));
    assert t.sys.pump == g.sys.pump && g.sys.pump.phase == Gauging;
    assert |t.sys.nb.buf| == |s.nb.buf| - Min(room, |s.nb.buf|);
  }

  /** A mutex-held take keeps the invariant: the buffer only shrinks. */
  lemma TakeFollows(s: Sys, room: nat, fate: Fate)
    requires Inv(s)
    ensures Follows(s, Applied(s.(nb := Take(s.nb, room, fate).nb), Take(s.nb, room, fate).log, []))
  {
  }

  /** One atomic action. */
  function ApplyAct(s: Sys, a: Act): (r: Applied)
    requires Inv(s)
    ensures Follows(s, r)
    ensures BytesWith(r.log.removed, Caller) == []
    ensures !a.ResetAct? ==> BytesWith(r.log.removed, Discarded) == []
    ensures a.CloseAct? ==> r.sys.nb.errfield == Some(EOF)
    ensures a.ResetAct? ==> r.sys.nb.buf == []
    ensures Harmless(a) ==> r.log.removed == []
  {
    match a
    case PumpAct =>
      var r := PumpMove(s);
      assert r.log.removed == [];
      r
    case TakeAct(room) =>
      var t := Take(s.nb, room, Other);
      Applied(s.(nb := t.nb), t.log, [])
    case ResetAct =>
      var t := Reset(s.nb);
      Applied(s.(nb := t.nb), t.log, [])
    case CloseAct =>
      Applied(s.(nb := Close(s.nb)), Quiet, [])
  }

  /** An action that takes no bytes from the buffer: one of the pump's, or
      Close. With only such actions besides its own, a caller is the
      buffer's only consumer. */
  predicate Harmless(a: Act) {
    a.PumpAct? || a.CloseAct?
  }

  predicate Solo(acts: seq<Act>) {
    forall i :: 0 <= i < |acts| ==> Harmless(acts[i])
  }

  /** Whether a list of actions contains a Reset. */
  predicate HasReset(acts: seq<Act>) {
    exists i :: 0 <= i < |acts| && acts[i].ResetAct?
  }

  /** Actions one after another. */
  function ApplyActs(s: Sys, acts: seq<Act>): (r: Applied)
    requires Inv(s)
    ensures Follows(s, r)
    ensures BytesWith(r.log.removed, Caller) == []
    ensures !HasReset(acts) ==> BytesWith(r.log.removed, Discarded) == []
    ensures Solo(acts) ==> r.log.removed == []
    decreases |acts|
  {
    if acts == [] then Applied(s, Quiet, [])
    else
      var a := ApplyAct(s, acts[0]);
      var b := ApplyActs(a.sys, acts[1..]);
      FollowsCompose(s, a, b);
      BytesWithAppend(a.log.removed, b.log.removed, Caller);
      BytesWithAppend(a.log.removed, b.log.removed, Discarded);
      assert !HasReset(acts) ==> !HasReset(acts[1..]) by {
        if HasReset(acts[1..]) {
          var i :| 0 <= i < |acts[1..]| && acts[1..][i].ResetAct?;
          assert acts[i + 1].ResetAct?;
        }
      }
      assert Solo(acts) ==> Solo(acts[1..]) by {
        if Solo(acts) {
          forall i | 0 <= i < |acts[1..]|
            ensures Harmless(acts[1..][i])
          {
            assert acts[1..][i] == acts[i + 1];
          }
        }
      }
      Chain(a, b)
  }
}

=== FILE: trace.dfy ===
/** Whole runs of an adapter from construction: any interleaving of the
    other threads' atomic actions with the reads of one caller under study.
    This is where the integrity of the byte stream is stated end to end. */
module Trace {
  import opened Basics
  import opened Shared
  import opened Pump
  import opened System
  import opened Deadline

  /** What happens next: an atomic action of another thread (the pump's next
      half-iteration, another caller's take, Reset, Close), or a call of the
      caller under study to Read or to ReadDeadline, each with the clock
      reading at the call and the gaps it will meet. */
  datatype Event =
    | Do(act: Act)
    | ReadCall(room: nat, now: int, gaps: seq<Gap>)
    | DeadlineCall(room: nat, deadline: int, now: int, gaps: seq<Gap>)

  /** A run, and every byte its calls returned to the caller, in order. */
  datatype Traced = Traced(run: Applied, got: seq<byte>)

  /** Whether an event leaves the caller under study as the only consumer of
      the buffer: no other caller's take, no Reset. */
  predicate SoloEvent(e: Event) {
    match e
    case Do(a) => Harmless(a)
    case ReadCall(_, _, gaps) => SoloGaps(gaps)
    case DeadlineCall(_, _, _, gaps) => SoloGaps(gaps)
  }

  predicate SoloEvents(evs: seq<Event>) {
    forall i :: 0 <= i < |evs| ==> SoloEvent(evs[i])
  }

  function Step(s: Sys, e: Event): (r: Traced)
    requires Inv(s)
    ensures Follows(s, r.run) && Mine(r.run) == r.got
    ensures SoloEvent(e) ==> Flatten(r.run.log.removed) == r.got
    ensures e == Do(CloseAct) ==> r.run.sys.nb.errfield == Some(EOF)
  {
    match e
    case Do(a) => Traced(ApplyAct(s, a), [])
    case ReadCall(room, now, gaps) =>
      var o := Read(s, room, now, gaps);
      Traced(o.run, o.got)
    case DeadlineCall(room, deadline, now, gaps) =>
      var o := ReadDeadline(s, room, deadline, now, gaps);
      Traced(o.run, o.got)
  }

  /** Whether another thread closes the adapter somewhere in a run. */
  predicate Closes(evs: seq<Event>) {
    exists i :: 0 <= i < |evs| && evs[i] == Do(CloseAct)
  }

  /** Events one after another; the bytes returned are concatenated. After
      a Close anywhere in the run the slot is set at its end: nothing clears
      a terminal error. */
  function Run(s: Sys, evs: seq<Event>): (r: Traced)
    requires Inv(s)
    ensures Follows(s, r.run) && Mine(r.run) == r.got
    ensures SoloEvents(evs) ==> Flatten(r.run.log.removed) == r.got
    ensures Closes(evs) ==> r.run.sys.nb.errfield.Some?
    decreases |evs|
  {
    if evs == [] then
      FollowsNothing(s);
      Traced(Applied(s, Quiet, []), [])
    else
      var a := Step(s, evs[0]);
      var b := Run(a.run.sys, evs[1..]);
      FollowsCompose(s, a.run, b.run);
      BytesWithAppend(a.run.log.removed, b.run.log.removed, Caller);
      assert SoloEvents(evs) ==> Flatten(a.run.log.removed + b.run.log.removed) == a.got + b.got by {
        if SoloEvents(evs) {
          assert SoloEvent(evs[0]);
          assert SoloEvents(evs[1..]) by {
            forall i | 0 <= i < |evs[1..]|
              ensures SoloEvent(evs[1..][i])
            {
              assert evs[1..][i] == evs[i + 1];
            }
          }
          FlattenAppend(a.run.log.removed, b.run.log.removed);
        }
      }
      assert Closes(evs) && evs[0] != Do(CloseAct) ==> Closes(evs[1..]) by {
        if Closes(evs) && evs[0] != Do(CloseAct) {
          var i :| 0 <= i < |evs| && evs[i] == Do(CloseAct);
          assert evs[1..][i - 1] == evs[i];
        }
      }
      Traced(Chain(a.run, b.run), a.got + b.got)
  }

  /** From construction on: the bytes that left the buffer, in order,
      followed by the bytes still in it, are exactly the bytes the pump
      read from the underlying stream, which it consumed from the front;
      the caller got exactly its own chunks; and the buffer bound held. */
  lemma Integrity(nb: NonBlocking, stream: seq<ReadResult>, evs: seq<Event>)
    requires Configured(nb) && nb.buf == [] && nb.errfield == None
    ensures var r := Run(Start(nb, stream), evs);
      && Flatten(r.run.log.removed) + r.run.sys.nb.buf == Payloads(r.run.consumed, nb.readSize)
      && stream == r.run.consumed + r.run.sys.stream
      && BytesWith(r.run.log.removed, Caller) == r.got
      && Buffered(r.run.sys.nb) <= nb.maxBuffered + nb.readSize - 1
  {
    var r := Run(Start(nb, stream), evs);
    assert [] + r.run.log.added == r.run.log.added;
  }

  /** With the caller under study as the only consumer and no Reset, every
      byte the pump read reaches the caller exactly once and in order, or is
      still buffered. */
  lemma SoloIntegrity(nb: NonBlocking, stream: seq<ReadResult>, evs: seq<Event>)
    requires Configured(nb) && nb.buf == [] && nb.errfield == None
    requires SoloEvents(evs)
    ensures var r := Run(Start(nb, stream), evs);
      r.got + r.run.sys.nb.buf == Payloads(r.run.consumed, nb.readSize)
  {
    Integrity(nb, stream, evs);
  }
}
